=== FILE: README.md ===
# vulndb core, modelled in Dafny

This project models the data path of vulndb. vulndb collects vulnerability
advisories from three feeds and turns them into one record shape. It then
keeps those records in an append-only binary store. The model covers four
parts:

- **Version-range normalisers.** The GitHub adapter's `get_version_range`
  turns a GHSA `vulnerableVersionRange` into one `(version_start, version_end)`
  pair. The npm adapter's `get_version_ranges` does the same for each
  `||`-disjunct of an npm `vulnerable_versions` string.
- **Adapters.** Each adapter has a `convert` function:
  - GitHub (GraphQL security advisories);
  - npm (the bulk-advisory response);
  - NVD (the yearly JSON feed), including `convert_vuln` and `convert_vuln_detail`.
  The package-list parsing of npm `bulk_search` is modelled too.
- **Store.** `store` serializes a batch and appends it to the database log.
  It also appends one index entry per record to the index log.
- **Readers.** `stream_read` and `stream_bulk_search` read the database log back.

Python's string operations are written out in `PyStrings`:

- `str.replace(p, "")` deletes every non-overlapping occurrence of `p`, left to right.
- `split` and `count`.
- `strip`, over the Latin-1 whitespace set.
- ASCII `lower`.
- `re.split` on a character class.

The range parsers are proved on top of these definitions. They are not
modelled as idealised parsers.

Modules:

- `PyStrings`: the Python `str` operations the core relies on.
- `Records`: `Option` and `Result` (Python exceptions become `Failure`), and
  the record shapes the adapters share:
  - `AdvisoryRecord`: the template fields;
  - `Vulnerability` and `VulnerabilityDetail`;
  - `CvssV3`.
- `Gha`: the GitHub adapter (`vulndb/lib/gha.py`).
- `Npm`: the npm adapter (`vulndb/lib/npm.py`).
- `Nvd`: the NVD adapter (`vulndb/lib/nvd.py`).
- `Storage`: the store and its readers (`vulndb/lib/storage.py`).
  - A log file is the sequence of objects a msgpack unpacker yields from it.
  - Each object is a list (`Batch`) or a single non-list value (`Lone`).
  - Packing a list and unpacking it give back the same values, so the byte
    format needs no round-trip axiom.

Quirks of the code as written that the model keeps, set against the
format comments in the source's own docstrings (`vulndb/lib/gha.py:127-133`,
`vulndb/lib/npm.py:61-67`):

- **npm lone lower bound.** The npm docstring lists
  `>=4.0.14 <4.1.0 || >=4.1.2` among the formats. For the lone `>=4.1.2`
  the code gives `("4.1.2", ">=4.1.2")`: the upper bound is the last token
  with only `<=` and `<` deleted, so it keeps the `>=` (`Npm.LowerOnly`).
- **GitHub lone `>= A`.** The GitHub docstring describes `>= 0.0.1` as
  having no known maximum. The code gives `(A, A)` (`Gha.LowerOnly`).
- **GitHub `< B`.** The docstring calls `< B` an exclusive bound; the code
  returns B as the same end as `<= B` (`Gha.SingleBoundPlain`).
- **GitHub operator text inside the version.** In the single-bound GitHub
  forms, `replace` deletes the operator text everywhere in the string, not only
  at its head (`Gha.SingleBound`). On a plain version number this makes no
  difference (`Gha.SingleBoundPlain`).
- **What reads back.** A store-then-read round trip yields the *serialized*
  batches concatenated, not the input batches themselves. `serialize_vuln_list`
  sits between the two (`Storage.StoreThenRead`).
- **Empty CVE values.** An empty CVE identifier value is falsy in Python. The
  GitHub id then falls back to the GHSA id with the `@github` assigner
  (`Gha.AttributionRule`).

## Model

| member | source | states |
|---|---|---|
| PyStrings.RemoveAll | vulndb/lib/gha.py:138 | deleting a pattern shortens the text by the pattern length times its occurrence count |
| PyStrings.RemoveAllChar | vulndb/lib/npm.py:95 | deleting a one-character pattern leaves no occurrence of it and every other character with its multiplicity |
| PyStrings.RemoveAllCharInOrder | vulndb/lib/npm.py:95 | deleting a one-character pattern is the order-preserving filter of the other characters |
| PyStrings.Split | vulndb/lib/npm.py:70 | `split` yields one more piece than the separator occurs |
| PyStrings.JoinSplit | vulndb/lib/gha.py:146 | joining the pieces of a split with the separator restores the text |
| PyStrings.SplitJoin | vulndb/lib/npm.py:70 | splitting a join of pieces that lack the separator's first character gives the pieces back |
| PyStrings.Strip | vulndb/lib/npm.py:73 | `strip` leaves no leading or trailing whitespace and is a slice of its input whose cut-off ends are all whitespace |
| PyStrings.StripPadded | vulndb/lib/npm.py:73 | stripping whitespace padding from text that has no whitespace at either end returns that text |
| PyStrings.Lower | vulndb/lib/gha.py:199-200 | `lower` keeps length, turns every ASCII upper-case letter into its lower-case partner and changes no other character |
| PyStrings.SplitAnyLast | vulndb/lib/gha.py:179-185 | the last piece of `re.split` on a character class is the text after the last separator |
| PyStrings.SplitAnyFirst | vulndb/lib/gha.py:179-184 | the first piece of `re.split` is the text before the first separator |
| Gha.VersionRangeOf | vulndb/lib/gha.py:126-149 | a lower bound appears only for a `>= ` input; text with none of the four prefixes gives `("", "*")` |
| Gha.SingleBound | vulndb/lib/gha.py:137-143 | `= X`, `<= X` and `< X` give no lower bound and X with every copy of the operator deleted as the upper bound |
| Gha.SingleBoundPlain | vulndb/lib/gha.py:137-143 | for a plain version X the three single-bound forms all give `("", X)`, exclusive treated as inclusive |
| Gha.Between | vulndb/lib/gha.py:144-148 | `>= A, < B` and `>= A, <= B` give `(A, B)` |
| Gha.LowerOnly | vulndb/lib/gha.py:144-148 | a lone `>= A` gives `(A, A)` |
| Gha.CoordinatesOf | vulndb/lib/gha.py:176-185 | a name with `:` or `/` gives vendor = text before the first of `/`, `\|`, `:` and product = text after the last; any other name gives (ecosystem, name) |
| Gha.ScopedName | vulndb/lib/gha.py:178-185 | `group:artifact` or `group/artifact` gives vendor `group` and product `artifact` |
| Gha.SpringWebflux | vulndb/lib/gha.py:180-185 | `org.springframework:spring-webflux` gives vendor `org.springframework` and product `spring-webflux` |
| Gha.LastCveIndex | vulndb/lib/gha.py:169-171 | locates the last identifier of type CVE, or reports that there is none |
| Gha.AttributionRule | vulndb/lib/gha.py:164-174 | the id is the last CVE value with assigner `cve@mitre.org`; with no CVE identifier, or an empty last CVE value, it is the GHSA id with `@github`; the assigner is always one of the two |
| Gha.ReferencesOf | vulndb/lib/gha.py:166-168 | one reference per URL, in order, with name and url both the URL |
| Gha.PackageRecordFields | vulndb/lib/gha.py:186-209 | a package record carries the advisory's attribution (id and assigner) and reference list, the parsed range, version `*`, CWE `UNKNOWN`, the lower-cased vendor and product of the package coordinates (ecosystem and name for an unscoped name) and the severity-table label |
| Gha.ScopedRecord | vulndb/lib/gha.py:176-200 | a `group:artifact` or `group/artifact` package gives the record vendor `lower(group)` and product `lower(artifact)` |
| Gha.SpringWebfluxRecord | vulndb/lib/gha.py:176-200 | the package `org.springframework:spring-webflux` gives record vendor `org.springframework` and product `spring-webflux` |
| Gha.AdvisoryRecords | vulndb/lib/gha.py:175-211 | one record per package node of an advisory |
| Gha.PackageRecordsAt | vulndb/lib/gha.py:175-211 | record j of an advisory is the record of its package node j: node order |
| Gha.ConvertNodes | vulndb/lib/gha.py:163-211 | as many records as package nodes over all advisories |
| Gha.ConvertNodesAppend | vulndb/lib/gha.py:163-211 | converting two advisory lists one after the other gives the two record lists concatenated |
| Gha.NodesAt | vulndb/lib/gha.py:163-211 | the records of advisory i start right after the records of the advisories before it |
| Gha.RecordAt | vulndb/lib/gha.py:163-211 | record j of advisory i sits right after the records of advisories before i: advisory-then-node order |
| Gha.Convert | vulndb/lib/gha.py:151-162 | `errors` or `Bad credentials` give no records and no cursor; otherwise a missing `data` raises, and a present one gives exactly `ConvertNodes` of its advisories (advisory-then-node order, one record per node) and its page info |
| Npm.TokensRange | vulndb/lib/npm.py:74-78 | a lower bound appears only when the first token starts with `>` |
| Npm.VersionRanges | vulndb/lib/npm.py:60-79 | one pair per `\|\|` disjunct: the result has one more pair than `\|\|` occurs |
| Npm.RangesOfDisjuncts | vulndb/lib/npm.py:69-79 | disjuncts joined by `\|\|` are parsed independently, in order |
| Npm.UpperOnly | vulndb/lib/npm.py:72-78 | `<=B`, `<B` or bare `B`, with any surrounding whitespace, gives `("", B)` |
| Npm.Bounded | vulndb/lib/npm.py:72-78 | `>=A <B` (with `>` or `>=`, `<` or `<=`) gives `(A, B)` |
| Npm.LowerOnly | vulndb/lib/npm.py:75-77 | a lone `>=A` or `>A` keeps its operator in the upper bound: `(A, ">=A")` |
| Npm.UpperOrBounded | vulndb/lib/npm.py:60-79 | `<=U \|\| >=A <B` gives `[("", U), (A, B)]` |
| Npm.TwoDisjuncts | vulndb/lib/npm.py:64 | the documented example `<=4.0.13 \|\| >=4.1.0 <4.1.2` gives `[("", "4.0.13"), ("4.1.0", "4.1.2")]` |
| Npm.IdsOf | vulndb/lib/npm.py:88-90 | an advisory fans out over its CVE list when non-empty, else over exactly its own id |
| Npm.Description | vulndb/lib/npm.py:95 | the description has no backtick and keeps every other character of the title with its multiplicity |
| Npm.DescriptionInOrder | vulndb/lib/npm.py:95 | the description is the title's characters other than the backtick, in their order |
| Npm.FanOut | vulndb/lib/npm.py:91-127 | ids times ranges records, each with vendor `npm`, the module name as product, assigner `@npm`, an id of the list and a range of the list |
| Npm.FanOutAt | vulndb/lib/npm.py:91-127 | record `i*\|ranges\|+j` pairs id i with range j: id-major order |
| Npm.EntryRecords | vulndb/lib/npm.py:85-127 | a deleted advisory gives no records; a live one gives exactly the id-major `AdvisoryRecords` fan-out of its ids and disjunct ranges, ids times disjuncts records, each with vendor `npm` and assigner `@npm` |
| Npm.ConvertEntries | vulndb/lib/npm.py:84-127 | one record per id and disjunct of every live advisory |
| Npm.ConvertEntriesFromNpm | vulndb/lib/npm.py:83-99 | every record the advisories yield has vendor `npm` and assigner `@npm` |
| Npm.ConvertEntriesAppend | vulndb/lib/npm.py:84 | advisories convert one after another, in key order |
| Npm.DeletedSkipped | vulndb/lib/npm.py:85-86 | a deleted advisory contributes nothing wherever it appears |
| Npm.TwoCvesTwoRanges | vulndb/lib/npm.py:88-127 | two CVE ids and `<=4.0.13 \|\| >=4.1.0 <4.1.2` give exactly four records, id-major, product the module name, vendor `npm` |
| Npm.Convert | vulndb/lib/npm.py:81-84 | a payload without `advisories` raises; any other converts to the records of its advisories in key order, as many as `RecordCount` says |
| Npm.PinOfText | vulndb/lib/npm.py:44-47 | `...\|name\|version` text gives the last two segments; text without `\|` gives itself as both name and version |
| Npm.CollectPins | vulndb/lib/npm.py:40-49 | the loop's `requires` has one key per package name, mapped to the version of that name's last entry; `dependencies` has the same keys, each holding `{version}` of `requires` |
| Npm.SearchBodyOf | vulndb/lib/npm.py:30-51 | the request body: one `requires` entry per distinct package name, holding the version of that name's last entry; `dependencies` mirrors it as `{version}`; the caller's other fields are kept |
| Nvd.BoundOf | vulndb/lib/nvd.py:170-175 | a bound is absent exactly when both keys are, and is the `Including` value when present, else the `Excluding` one |
| Nvd.BoundsFallBack | vulndb/lib/nvd.py:168-176 | a detail carries the entry's CPE, both bounds with the `Including`-then-`Excluding` fallback, and the item's `lastModifiedDate` |
| Nvd.ChildrenCpes | vulndb/lib/nvd.py:163-164 | gathering children's entries raises exactly when some child lacks `cpe_match` |
| Nvd.NodeCpes | vulndb/lib/nvd.py:162-165 | a node that is not `AND` contributes its own entries only and never raises |
| Nvd.NonAndIgnoresChildren | vulndb/lib/nvd.py:162-165 | the children of a node that is not `AND` do not affect its entries |
| Nvd.AndCollectsChildren | vulndb/lib/nvd.py:162-165 | an `AND` node contributes every child's entries, in order, then its own |
| Nvd.VulnerableDetails | vulndb/lib/nvd.py:166-177 | at most one detail per entry, none exactly when no entry is vulnerable, each carrying the item's `lastModifiedDate` |
| Nvd.VulnerableDetailsComplete | vulndb/lib/nvd.py:166-177 | every vulnerable entry becomes a detail |
| Nvd.VulnerableDetailsSound | vulndb/lib/nvd.py:166-177 | every detail comes from a vulnerable entry |
| Nvd.NodesDetails | vulndb/lib/nvd.py:152-177 | the node loop succeeds exactly when every node does, and every detail carries the item's `lastModifiedDate` |
| Nvd.NodesDetailsComplete | vulndb/lib/nvd.py:152-177 | every vulnerable entry of every node becomes a detail of the item |
| Nvd.NodesDetailsSound | vulndb/lib/nvd.py:152-177 | every detail of the item comes from a vulnerable entry of one of its nodes |
| Nvd.ConvertVulnDetail | vulndb/lib/nvd.py:151-180 | no details give `None`; otherwise the node loop's details are returned, never empty |
| Nvd.ProblemTypeOf | vulndb/lib/nvd.py:99-107 | the first value of the first problem-type entry when both lists are non-empty, and `""` exactly otherwise |
| Nvd.ConvertVuln | vulndb/lib/nvd.py:96-148 | raises exactly on an empty `description_data` or a failing node; drops an item with no details; otherwise keeps id, problem type, first description, URLs, date and the node loop's details, and fills score, severity and CVSS from `baseMetricV3` exactly when present |
| Nvd.ConvertKeepsSurvivors | vulndb/lib/nvd.py:68-77 | the item loop succeeds exactly when no item raises, and then keeps exactly the converted items, in order |
| Nvd.ConvertFeed | vulndb/lib/nvd.py:68-77 | a feed with `CVE_Items` converts to the surviving records in item order |
| Nvd.Convert | vulndb/lib/nvd.py:71-73 | a feed without `CVE_Items` raises |
| Nvd.NoDetailsDropped | vulndb/lib/nvd.py:74-76 | an item that converts to nothing is dropped wherever it appears |
| Nvd.EmptyNodeDropped | vulndb/lib/nvd.py:151-180 | an item whose only node is not `AND` and has an empty `cpe_match`, and whose description list is non-empty, is dropped |
| Storage.Store | vulndb/lib/storage.py:10-30 | store appends exactly one object to each log and leaves the earlier objects untouched; the database object is the packed serialized list and the return value; the index object lists that list's entries |
| Storage.IndexOf | vulndb/lib/storage.py:17-23 | one index entry per serialized record, in order, holding its package and maximum affected version |
| Storage.StoreKeepsParallel | vulndb/lib/storage.py:16-29 | store keeps index object i listing the entries of database object i |
| Storage.ParallelIndex | vulndb/lib/storage.py:16-29 | read whole, the index log holds one entry per stored record, in order |
| Storage.StreamRead | vulndb/lib/storage.py:33-42 | the read returns the values of every list in the log, in log order |
| Storage.StoreThenRead | vulndb/lib/storage.py:10-42 | storing batches b1..bn into empty files and reading back gives serialize(b1) ++ .. ++ serialize(bn), with the index parallel |
| Storage.StreamBulkSearch | vulndb/lib/storage.py:45-59 | the search returns, in log order, every value whose key is in the match list, with a non-list object counting as one value |
| Storage.SearchUnit | vulndb/lib/storage.py:52-58 | scanning one object extends the matches so far by the matches among the values it stands for |
| Storage.SearchBatch | vulndb/lib/storage.py:52-55 | scanning one list extends the matches found so far by that list's matches, in order |
| Storage.Values | vulndb/lib/storage.py:52-58 | a list object stands for its elements; any other object stands for itself alone |
| Storage.SelectIsSubsequence | vulndb/lib/storage.py:49-59 | the matches sit at strictly increasing positions of what is searched |
| Storage.SelectMembers | vulndb/lib/storage.py:52-58 | a value is found exactly when it is stored and its key is in the match list |
| Storage.SelectNothing | vulndb/lib/storage.py:52-58 | an empty match list finds nothing |
| Storage.SelectEverything | vulndb/lib/storage.py:52-58 | a match list covering every key finds every value, in order |
| Storage.SearchAfterStore | vulndb/lib/storage.py:10-59 | searching the database that storing batches leaves behind finds, in order, exactly the serialized records whose key matches, at increasing positions |

## Left out

- HTTP fetching (`fetch`, `download_all`, `download_recent`, `refresh`, the GraphQL query text, token headers) and the pagination loops: network I/O and orchestration. The adapters start from the decoded JSON payload.
- gzip, temporary files and file handles: a log file is the sequence of decoded objects it holds. The msgpack byte format and the unpacker's read buffer are not modelled.
- The record template and its re-parse through `convert_vuln` in the GitHub and npm adapters. The template text is not part of this model. Those adapters produce the typed template fields (`AdvisoryRecord`) instead.
- `get_default_cve_data` is a function parameter (`defaults`), `serialize_vuln_list` is a function parameter (`serialize`), and the `key_func` of the bulk search is a parameter. Their bodies are not part of this model.
- `convert_to_occurrence` and the `fetch` call at the end of npm `bulk_search` are not modelled. `Npm.SearchBodyOf` stops at the request body.
- `VulnerabilityDetail.from_dict` is taken as the plain constructor, and `Vulnerability` objects as always truthy.
- CVSS scores are opaque `real` values. No arithmetic is done on them.
- Logging, the module-level database handle and `NvdSource.store` (which only forwards to `store`) are not modelled.
- Python dictionaries: the npm `advisories` object is a sequence of key–value pairs in iteration order. `bulk_search`'s maps are Dafny maps, so their key order is not modelled.
- JSON shape errors inside one item are not modelled: a field that is absent or has the wrong type is assumed present and well typed. The exception paths modelled, each a `Failure`, are:
  - a missing `data` (GitHub, `KeyError`);
  - a missing `advisories` (npm: `.items()` on `None`, an `AttributeError`);
  - a missing `CVE_Items` (NVD: iterating `None`, a `TypeError`);
  - an empty `description_data` list;
  - an `AND` child without `cpe_match`.
- A present-but-`null` value is not distinguished from an absent key.
- `convert_vuln` also writes `exploitabilityScore` and `impactScore` back into the input dictionary. That side effect on the input is not modelled.
- `PyStrings.Lower` and `PyStrings.Strip` follow Python only on ASCII letters and Latin-1 whitespace. Other Unicode case mappings and whitespace are not modelled.
- Storage.StreamRead: requires every object of the log to be a list. `store` only ever writes lists, and Python's `list += dict` on a non-list object would splice in the object's keys, which have no place in a typed model.
- Concurrent writers are not modelled: one `store` call is one atomic append.

=== FILE: gha.dfy ===
/** The GitHub security-advisory adapter (`GitHubSource`): the GraphQL
    advisory page becomes one advisory record per affected package node. */
module Gha {
  import opened Records
  import opened PyStrings

  datatype Identifier = Identifier(kind: string, value: string)
  datatype Package = Package(ecosystem: string, name: string)
  /** One node of an advisory's `vulnerabilities.nodes`. */
  datatype AffectedPackage = AffectedPackage(package: Package, severity: string, vulnerableVersionRange: string)
  datatype Advisory = Advisory(
    ghsaId: string,
    summary: string,
    identifiers: seq<Identifier>,
    referenceUrls: seq<string>,
    publishedAt: string,
    updatedAt: string,
    vulnerabilities: seq<AffectedPackage>)
  datatype PageInfo = PageInfo(endCursor: Option<string>, hasNextPage: bool)
  datatype SecurityAdvisories = SecurityAdvisories(nodes: seq<Advisory>, pageInfo: PageInfo)
  /** The response body: `errors` is empty when absent, `data` is the
      `data.securityAdvisories` object when present. */
  datatype Payload = Payload(errors: seq<string>, message: Option<string>, data: Option<SecurityAdvisories>)
  /** What `convert` returns: the records and the page cursor. */
  datatype Page = Page(records: seq<AdvisoryRecord>, pageInfo: Option<PageInfo>)

  // -----------------------------------------------------------------------
  // Version ranges

  /** `get_version_range`: one clause of GitHub's range syntax to a bound
      pair. Every `str.replace` deletes all occurrences of its pattern. */
  function VersionRangeOf(s: string): (r: VersionRange)
    ensures r.start != "" ==> StartsWith(s, ">= ")
    ensures !StartsWith(s, "= ") && !StartsWith(s, "<= ") && !StartsWith(s, "< ") && !StartsWith(s, ">= ")
            ==> r == VersionRange("", "*")
  {
    if StartsWith(s, "= ") then VersionRange("", RemoveAll(s, "= "))
    else if StartsWith(s, "<= ") then VersionRange("", RemoveAll(s, "<= "))
    else if StartsWith(s, "< ") then VersionRange("", RemoveAll(s, "< "))
    else if StartsWith(s, ">= ") then
      var parts := Split(RemoveAll(s, ">= "), ", ");
      VersionRange(parts[0], RemoveAll(RemoveAll(Last(parts), "< "), "<= "))
    else VersionRange("", "*")
  }

  /** `= X`, `<= X` and `< X` all give an upper bound only; the exclusive form
      is widened to an inclusive one. The operator is deleted from the whole
      text, not only from its head. */
  lemma SingleBound(op: string, x: string)
    requires op == "= " || op == "<= " || op == "< "
    ensures VersionRangeOf(op + x) == VersionRange("", RemoveAll(x, op))
  {
    var s := op + x;
    assert s[..|op|] == op;
    assert s[0] == op[0] && s[1] == op[1];
    RemoveAllPrefix(op, x);
    SingleBranch(s, op);
  }

  /** Which single-bound branch a text takes is decided by its first two
      characters. */
  lemma SingleBranch(s: string, op: string)
    requires op == "= " || op == "<= " || op == "< "
    requires StartsWith(s, op) && s[0] == op[0] && s[1] == op[1]
    ensures VersionRangeOf(s) == VersionRange("", RemoveAll(s, op))
  {
    if op == "<= " {
      assert !StartsWith(s, "= ");
    } else if op == "< " {
      assert !StartsWith(s, "= ") && !StartsWith(s, "<= ");
    }
  }

  /** On a plain version the single-bound forms give exactly `("", X)`. */
  lemma SingleBoundPlain(op: string, x: string)
    requires op == "= " || op == "<= " || op == "< "
    requires PlainVersion(x)
    ensures VersionRangeOf(op + x) == VersionRange("", x)
  {
    SingleBound(op, x);
    RemoveAllAbsent(x, op);
  }

  /** `>= A, < B` and `>= A, <= B` give `(A, B)`. */
  lemma Between(a: string, op: string, b: string)
    requires op == "< " || op == "<= "
    requires PlainVersion(a) && PlainVersion(b)
    ensures VersionRangeOf(">= " + a + ", " + op + b) == VersionRange(a, b)
  {
    var s := ">= " + a + ", " + op + b;
    var tail := a + ", " + (op + b);
    assert s == ">= " + tail;
    assert s[0] == '>' && s[..3] == ">= ";
    assert !StartsWith(s, "= ") && !StartsWith(s, "<= ") && !StartsWith(s, "< ");
    BetweenTail(a, op, b);
    UpperBoundText(op, b);
  }

  /** Deleting `>= ` and cutting at `, ` leaves exactly the two bounds. */
  lemma BetweenTail(a: string, op: string, b: string)
    requires op == "< " || op == "<= "
    requires PlainVersion(a) && PlainVersion(b)
    ensures Split(RemoveAll(">= " + (a + ", " + (op + b)), ">= "), ", ") == [a, op + b]
  {
    var hi := op + b;
    var tail := a + ", " + hi;
    PlainLacks(a);
    PlainLacks(b);
    assert forall c :: c in hi ==> c in op || c in b;
    assert '>' !in hi && ',' !in hi;
    assert forall c :: c in tail ==> c in a || c in ", " || c in hi;
    DropLowerOperator(tail);
    SplitTwo(a, ", ", hi);
  }

  /** Deleting `>= ` from `>= T` leaves T when T has no `>`. */
  lemma DropLowerOperator(tail: string)
    requires '>' !in tail
    ensures RemoveAll(">= " + tail, ">= ") == tail
  {
    RemoveAllPrefix(">= ", tail);
    RemoveAllAbsent(tail, ">= ");
  }

  /** The upper bound of the range form loses its operator. */
  lemma UpperBoundText(op: string, b: string)
    requires op == "< " || op == "<= "
    requires PlainVersion(b)
    ensures RemoveAll(RemoveAll(op + b, "< "), "<= ") == b
  {
    if op == "< " {
      RemoveAllPrefix("< ", b);
      RemoveAllAbsent(b, "< ");
      RemoveAllAbsent(b, "<= ");
    } else {
      assert op + b == ['<'] + ("= " + b);
      assert !StartsWith(op + b, "< ") by { assert (op + b)[1] == '='; }
      RemoveAllSkip('<', "= " + b, "< ");
      assert '<' !in "= " + b;
      RemoveAllAbsent("= " + b, "< ");
      RemoveAllPrefix("<= ", b);
      RemoveAllAbsent(b, "<= ");
    }
  }

  /** A lone `>= A` gives `(A, A)`, although the documented meaning is "no
      known maximum". */
  lemma LowerOnly(a: string)
    requires PlainVersion(a)
    ensures VersionRangeOf(">= " + a) == VersionRange(a, a)
  {
    var s := ">= " + a;
    assert s[..3] == ">= ";
    assert s[0] == '>';
    RemoveAllPrefix(">= ", a);
    RemoveAllAbsent(a, ">= ");
    SplitAbsent(a, ", ");
    RemoveAllAbsent(a, "< ");
    RemoveAllAbsent(a, "<= ");
  }

  // -----------------------------------------------------------------------
  // Vendor and product

  const Separators: set<char> := {'/', '|', ':'}

  /** Only a name with `:` or `/` is cut; `|` alone does not trigger it. */
  predicate Scoped(name: string) {
    ':' in name || '/' in name
  }

  datatype Coordinates = Coordinates(vendor: string, product: string)

  /** Vendor and product before lower-casing: a scoped name is cut on
      `/`, `|` and `:`; the vendor is the text before the first cut and the
      product the text after the last. */
  function CoordinatesOf(p: Package): (c: Coordinates)
    ensures Scoped(p.name) ==>
      && StartsWith(p.name, c.vendor) && NoneIn(c.vendor, Separators)
      && |c.vendor| < |p.name| && p.name[|c.vendor|] in Separators
      && LastPieceOf(p.name, c.product, Separators) && |c.product| < |p.name|
    ensures !Scoped(p.name) ==> c == Coordinates(p.ecosystem, p.name)
  {
    if Scoped(p.name) then
      var parts := SplitAny(p.name, Separators);
      SplitAnyFirst(p.name, Separators);
      SplitAnyLast(p.name, Separators);
      var c := Coordinates(parts[0], Last(parts));
      assert !NoneIn(p.name, Separators);
      c
    else Coordinates(p.ecosystem, p.name)
  }

  /** `group:artifact` (or `scope/name`) gives vendor `group` and product
      `artifact`. */
  lemma ScopedName(ecosystem: string, group: string, sep: char, artifact: string)
    requires sep == ':' || sep == '/'
    requires NoneIn(group, Separators) && NoneIn(artifact, Separators)
    ensures CoordinatesOf(Package(ecosystem, group + [sep] + artifact)) == Coordinates(group, artifact)
  {
    var name := group + [sep] + artifact;
    assert name[|group|] == sep;
    var c := CoordinatesOf(Package(ecosystem, name));
    var v := c.vendor;
    assert v == name[..|group|] == group;
    var w := c.product;
    assert w == name[|name| - |artifact|..] == artifact;
  }

  /** The example of a Maven coordinate. */
  lemma SpringWebflux()
    ensures CoordinatesOf(Package("Maven", "org.springframework:spring-webflux"))
            == Coordinates("org.springframework", "spring-webflux")
  {
    var g := "org.springframework";
    var a := "spring-webflux";
    assert "org.springframework:spring-webflux" == g + [':'] + a;
    ScopedName("Maven", g, ':', a);
  }

  /** A name that is already lower case is left as it is. */
  lemma LowerKeeps(s: string)
    requires forall i :: 0 <= i < |s| ==> !('A' <= s[i] <= 'Z')
    ensures Lower(s) == s
  {
  }

  // -----------------------------------------------------------------------
  // Identifier and assigner

  /** Index of the last identifier of type `CVE`; the loop over
      `identifiers` lets each such entry overwrite the one before. */
  function LastCveIndex(ids: seq<Identifier>): (k: Option<nat>)
    ensures k.Some? ==> k.value < |ids| && ids[k.value].kind == "CVE"
    ensures k.Some? ==> forall j :: k.value < j < |ids| ==> ids[j].kind != "CVE"
    ensures k.None? ==> forall j :: 0 <= j < |ids| ==> ids[j].kind != "CVE"
    decreases |ids|
  {
    if ids == [] then None
    else if Last(ids).kind == "CVE" then Some(|ids| - 1)
    else LastCveIndex(ids[..|ids| - 1])
  }

  datatype Attribution = Attribution(id: string, assigner: string)

  const MitreAssigner := "cve@mitre.org"
  const GithubAssigner := "@github"

  /** The record id and its assigning authority. An empty CVE value is
      falsy, so it falls back to the GHSA id as well. */
  function AttributionOf(a: Advisory): Attribution {
    match LastCveIndex(a.identifiers)
    case Some(k) =>
      if a.identifiers[k].value != "" then Attribution(a.identifiers[k].value, MitreAssigner)
      else Attribution(a.ghsaId, GithubAssigner)
    case None => Attribution(a.ghsaId, GithubAssigner)
  }

  /** The id is the value of the last CVE identifier (when non-empty), with
      the MITRE assigner; otherwise the GHSA id with the GitHub assigner. */
  lemma AttributionRule(a: Advisory, k: nat)
    ensures k < |a.identifiers| && a.identifiers[k].kind == "CVE"
            && (forall j :: k < j < |a.identifiers| ==> a.identifiers[j].kind != "CVE")
            && a.identifiers[k].value != ""
            ==> AttributionOf(a) == Attribution(a.identifiers[k].value, MitreAssigner)
    ensures (forall j :: 0 <= j < |a.identifiers| ==> a.identifiers[j].kind != "CVE")
            ==> AttributionOf(a) == Attribution(a.ghsaId, GithubAssigner)
    ensures k < |a.identifiers| && a.identifiers[k].kind == "CVE"
            && (forall j :: k < j < |a.identifiers| ==> a.identifiers[j].kind != "CVE")
            && a.identifiers[k].value == ""
            ==> AttributionOf(a) == Attribution(a.ghsaId, GithubAssigner)
    ensures AttributionOf(a).assigner == GithubAssigner ==> AttributionOf(a).id == a.ghsaId
    ensures AttributionOf(a).assigner == GithubAssigner || AttributionOf(a).assigner == MitreAssigner
  {
  }

  // -----------------------------------------------------------------------
  // Records

  /** `{"url": u, "name": u}` for every reference, in order. */
  function ReferencesOf(urls: seq<string>): (refs: seq<Reference>)
    ensures |refs| == |urls|
    ensures forall i :: 0 <= i < |urls| ==> refs[i].url == Some(urls[i]) && refs[i].name == urls[i]
  {
    if urls == [] then []
    else [Reference(urls[0], Some(urls[0]))] + ReferencesOf(urls[1..])
  }

  /** The template fields for one affected package of an advisory;
      `defaults` is the severity table. */
  function PackageRecord(a: Advisory, p: AffectedPackage, defaults: Option<string> -> SeverityDefaults): AdvisoryRecord {
    var who := AttributionOf(a);
    var at := CoordinatesOf(p.package);
    var range := VersionRangeOf(p.vulnerableVersionRange);
    var sev := defaults(Some(p.severity));
    AdvisoryRecord(
      cveId := who.id,
      cweId := Some("UNKNOWN"),
      assigner := who.assigner,
      references := ReferencesOf(a.referenceUrls),
      description := a.summary,
      vectorString := sev.vectorString,
      vendor := Lower(at.vendor),
      product := Lower(at.product),
      version := "*",
      versionStart := range.start,
      versionEnd := range.end,
      severity := sev.severity,
      attackComplexity := sev.attackComplexity,
      score := sev.score,
      publishedDate := a.publishedAt,
      lastModifiedDate := a.updatedAt)
  }

  /** What a package record carries: the advisory's attribution, its
      reference list, the parsed range, and lower-cased coordinates, the
      ecosystem and name themselves for an unscoped name. */
  lemma PackageRecordFields(a: Advisory, p: AffectedPackage, defaults: Option<string> -> SeverityDefaults)
    ensures var r := PackageRecord(a, p, defaults);
      && r.cveId == AttributionOf(a).id && r.assigner == AttributionOf(a).assigner
      && r.references == ReferencesOf(a.referenceUrls)
      && r.vendor == Lower(CoordinatesOf(p.package).vendor)
      && r.product == Lower(CoordinatesOf(p.package).product)
      && (r.assigner == MitreAssigner || r.assigner == GithubAssigner)
      && (r.assigner == GithubAssigner ==> r.cveId == a.ghsaId)
      && |r.references| == |a.referenceUrls|
      && VersionRange(r.versionStart, r.versionEnd) == VersionRangeOf(p.vulnerableVersionRange)
      && r.version == "*" && r.cweId == Some("UNKNOWN")
      && (forall i :: 0 <= i < |r.vendor| ==> !('A' <= r.vendor[i] <= 'Z'))
      && (forall i :: 0 <= i < |r.product| ==> !('A' <= r.product[i] <= 'Z'))
      && (!Scoped(p.package.name) ==> r.vendor == Lower(p.package.ecosystem) && r.product == Lower(p.package.name))
      && r.severity == defaults(Some(p.severity)).severity
  {
  }

  /** The inner loop over an advisory's package nodes `ps`. */
  function PackageRecords(a: Advisory, ps: seq<AffectedPackage>, defaults: Option<string> -> SeverityDefaults): (rs: seq<AdvisoryRecord>)
    ensures |rs| == |ps|
  {
    if ps == [] then [] else [PackageRecord(a, ps[0], defaults)] + PackageRecords(a, ps[1..], defaults)
  }

  /** Record `j` of the inner loop is the record of package node `j`. */
  lemma {:induction false} PackageRecordsAt(a: Advisory, ps: seq<AffectedPackage>, defaults: Option<string> -> SeverityDefaults, j: nat)
    requires j < |ps|
    ensures PackageRecords(a, ps, defaults)[j] == PackageRecord(a, ps[j], defaults)
    decreases j
  {
    if j > 0 {
      PackageRecordsAt(a, ps[1..], defaults, j - 1);
    }
  }

  /** A `group:artifact` (or `group/artifact`) package reaches the record as
      vendor `group` and product `artifact`, lower-cased. */
  lemma ScopedRecord(a: Advisory, p: AffectedPackage, defaults: Option<string> -> SeverityDefaults,
                     group: string, sep: char, artifact: string)
    requires sep == ':' || sep == '/'
    requires NoneIn(group, Separators) && NoneIn(artifact, Separators)
    requires p.package.name == group + [sep] + artifact
    ensures PackageRecord(a, p, defaults).vendor == Lower(group)
    ensures PackageRecord(a, p, defaults).product == Lower(artifact)
  {
    ScopedName(p.package.ecosystem, group, sep, artifact);
    assert p.package == Package(p.package.ecosystem, group + [sep] + artifact);
    RecordCoordinates(a, p, defaults);
  }

  /** The Maven package of the example advisory reaches the record as
      vendor `org.springframework` and product `spring-webflux`. */
  lemma SpringWebfluxRecord(a: Advisory, p: AffectedPackage, defaults: Option<string> -> SeverityDefaults)
    requires p.package.name == "org.springframework:spring-webflux"
    ensures PackageRecord(a, p, defaults).vendor == "org.springframework"
    ensures PackageRecord(a, p, defaults).product == "spring-webflux"
  {
    var g, w := "org.springframework", "spring-webflux";
    SpringParts(g, w);
    ScopedRecord(a, p, defaults, g, ':', w);
  }

  lemma SpringParts(g: string, w: string)
    requires g == "org.springframework" && w == "spring-webflux"
    ensures "org.springframework:spring-webflux" == g + [':'] + w
    ensures NoneIn(g, Separators) && NoneIn(w, Separators)
    ensures Lower(g) == g && Lower(w) == w
  {
    LowerKeeps(g);
    LowerKeeps(w);
  }

  lemma RecordCoordinates(a: Advisory, p: AffectedPackage, defaults: Option<string> -> SeverityDefaults)
    ensures PackageRecord(a, p, defaults).vendor == Lower(CoordinatesOf(p.package).vendor)
    ensures PackageRecord(a, p, defaults).product == Lower(CoordinatesOf(p.package).product)
  {
  }

  /** The records of one advisory: one per package node. */
  function AdvisoryRecords(a: Advisory, defaults: Option<string> -> SeverityDefaults): (rs: seq<AdvisoryRecord>)
    ensures |rs| == |a.vulnerabilities|
  {
    PackageRecords(a, a.vulnerabilities, defaults)
  }

  /** Number of package nodes over all advisories. */
  function NodeCount(advs: seq<Advisory>): nat {
    if advs == [] then 0 else |advs[0].vulnerabilities| + NodeCount(advs[1..])
  }

  /** The nested loop: advisories in order, and their package nodes in
      order. */
  function ConvertNodes(advs: seq<Advisory>, defaults: Option<string> -> SeverityDefaults): (rs: seq<AdvisoryRecord>)
    ensures |rs| == NodeCount(advs)
  {
    if advs == [] then [] else AdvisoryRecords(advs[0], defaults) + ConvertNodes(advs[1..], defaults)
  }

  /** `convert`: the error and bad-credentials envelopes give no records and
      no cursor; a missing `data` object raises. */
  function Convert(payload: Payload, defaults: Option<string> -> SeverityDefaults): (r: Result<Page>)
    ensures |payload.errors| > 0 ==> r == Success(Page([], None))
    ensures payload.message == Some("Bad credentials") ==> r == Success(Page([], None))
    ensures r.Failure? <==> |payload.errors| == 0 && payload.message != Some("Bad credentials") && payload.data.None?
    ensures |payload.errors| == 0 && payload.message != Some("Bad credentials") && payload.data.Some? ==>
      && r.Success?
      && |r.value.records| == NodeCount(payload.data.value.nodes)
      && r.value.pageInfo == Some(payload.data.value.pageInfo)
    ensures |payload.errors| == 0 && payload.message != Some("Bad credentials") && payload.data.Some? ==>
      r == Success(Page(ConvertNodes(payload.data.value.nodes, defaults), Some(payload.data.value.pageInfo)))
  {
    if |payload.errors| > 0 then Success(Page([], None))
    else if payload.message == Some("Bad credentials") then Success(Page([], None))
    else if payload.data.None? then Failure(MissingKey("data"))
    else
      var d := payload.data.value;
      Success(Page(ConvertNodes(d.nodes, defaults), Some(d.pageInfo)))
  }

  lemma {:induction false} ConvertNodesAppend(xs: seq<Advisory>, ys: seq<Advisory>, defaults: Option<string> -> SeverityDefaults)
    ensures ConvertNodes(xs + ys, defaults) == ConvertNodes(xs, defaults) + ConvertNodes(ys, defaults)
    decreases |xs|
  {
    if xs == [] {
      assert xs + ys == ys;
    } else {
      assert (xs + ys)[1..] == xs[1..] + ys;
      ConvertNodesAppend(xs[1..], ys, defaults);
      assert ConvertNodes(xs + ys, defaults) == AdvisoryRecords(xs[0], defaults) + ConvertNodes(xs[1..] + ys, defaults);
    }
  }

  /** Block `i` starts after the blocks of the advisories before it. */
  lemma NodesAt(advs: seq<Advisory>, defaults: Option<string> -> SeverityDefaults, i: nat, j: nat)
    requires i < |advs| && j < |advs[i].vulnerabilities|
    ensures NodeCount(advs[..i]) + j < |ConvertNodes(advs, defaults)|
    ensures ConvertNodes(advs, defaults)[NodeCount(advs[..i]) + j] == AdvisoryRecords(advs[i], defaults)[j]
  {
    var pre, post := advs[..i], advs[i..];
    assert advs == pre + post;
    ConvertNodesAppend(pre, post, defaults);
    var front := ConvertNodes(pre, defaults);
    var h := AdvisoryRecords(advs[i], defaults);
    var rest := ConvertNodes(post[1..], defaults);
    assert post[0] == advs[i];
    assert ConvertNodes(post, defaults) == h + rest;
    IndexMiddle(front, h, rest, j);
  }

  lemma IndexMiddle<T>(a: seq<T>, b: seq<T>, c: seq<T>, j: nat)
    requires j < |b|
    ensures |a| + j < |a + (b + c)| && (a + (b + c))[|a| + j] == b[j]
  {
  }

  /** Record `j` of advisory `i` sits at position `NodeCount(advs[..i]) + j`:
      one record per package node, in advisory-then-node order. */
  lemma RecordAt(advs: seq<Advisory>, defaults: Option<string> -> SeverityDefaults, i: nat, j: nat)
    requires i < |advs| && j < |advs[i].vulnerabilities|
    ensures NodeCount(advs[..i]) + j < |ConvertNodes(advs, defaults)|
    ensures ConvertNodes(advs, defaults)[NodeCount(advs[..i]) + j]
            == PackageRecord(advs[i], advs[i].vulnerabilities[j], defaults)
  {
    NodesAt(advs, defaults, i, j);
    PackageRecordsAt(advs[i], advs[i].vulnerabilities, defaults, j);
  }
}

=== FILE: npm.dfy ===
/** The npm advisory adapter (`NpmSource`): disjunctive version ranges,
    the advisory-to-record fan-out, and the request body `bulk_search`
    builds from a package list. */
module Npm {
  import opened Records
  import opened PyStrings

  /** One advisory of the `advisories` object. Absent `cves` reads as the
      empty list and absent `title` as the empty string, as `.get` gives. */
  datatype Advisory = Advisory(
    deleted: bool,
    cves: seq<string>,
    id: string,
    created: string,
    updated: string,
    title: string,
    url: Option<string>,
    severity: Option<string>,
    moduleName: string,
    cwe: Option<string>,
    vulnerableVersions: string)

  /** The response body; `advisories` keeps the object's key order. */
  datatype Payload = Payload(advisories: Option<seq<(string, Advisory)>>)

  // -----------------------------------------------------------------------
  // Version ranges

  /** The bounds read off the space-separated tokens of one disjunct. Only a
      first token starting with `>` gives a lower bound; the last token, with
      `<=` and `<` deleted, is the upper bound. */
  function TokensRange(tokens: seq<string>): (r: VersionRange)
    requires |tokens| >= 1
    ensures r.start != "" ==> StartsWith(tokens[0], ">")
  {
    var start := if StartsWith(tokens[0], ">") then RemoveAll(RemoveAll(tokens[0], ">="), ">") else "";
    VersionRange(start, RemoveAll(RemoveAll(Last(tokens), "<="), "<"))
  }

  /** One `||` disjunct: stripped and cut at single spaces. */
  function DisjunctRange(d: string): VersionRange {
    TokensRange(Split(Strip(d), " "))
  }

  /** `get_version_ranges`: one pair per `||` disjunct. */
  function VersionRanges(s: string): (rs: seq<VersionRange>)
    ensures |rs| == Count(s, "||") + 1
  {
    var parts := Split(s, "||");
    seq(|parts|, i requires 0 <= i < |parts| => DisjunctRange(parts[i]))
  }

  /** Disjuncts joined with `||` are parsed one by one, in order. */
  lemma RangesOfDisjuncts(ds: seq<string>)
    requires |ds| >= 1
    requires forall i :: 0 <= i < |ds| ==> '|' !in ds[i]
    ensures VersionRanges(Join(ds, "||")) == seq(|ds|, i requires 0 <= i < |ds| => DisjunctRange(ds[i]))
  {
    SplitJoin(ds, "||");
  }

  /** The lower-bound token `>=A` or `>A` loses its operator. */
  lemma LowerToken(op: string, a: string)
    requires op == ">=" || op == ">"
    requires PlainVersion(a)
    ensures StartsWith(op + a, ">")
    ensures RemoveAll(RemoveAll(op + a, ">="), ">") == a
  {
    PlainLacks(a);
    var t := op + a;
    assert t[..1] == ">";
    if op == ">=" {
      RemoveAllPrefix(">=", a);
      RemoveAllAbsent(a, ">=");
    } else {
      assert t == ['>'] + a;
      assert !StartsWith(t, ">=") by {
        if |t| >= 2 { assert t[1] == a[0]; }
      }
      RemoveAllSkip('>', a, ">=");
      RemoveAllAbsent(a, ">=");
    }
    RemoveAllPrefix(">", a);
    RemoveAllAbsent(a, ">");
  }

  /** The upper-bound token `<=B` or `<B` loses its operator. */
  lemma UpperToken(op: string, b: string)
    requires op == "<=" || op == "<"
    requires PlainVersion(b)
    ensures RemoveAll(RemoveAll(op + b, "<="), "<") == b
  {
    PlainLacks(b);
    var t := op + b;
    if op == "<=" {
      RemoveAllPrefix("<=", b);
      RemoveAllAbsent(b, "<=");
    } else {
      assert t == ['<'] + b;
      assert !StartsWith(t, "<=") by {
        if |t| >= 2 { assert t[1] == b[0]; }
      }
      RemoveAllSkip('<', b, "<=");
      RemoveAllAbsent(b, "<=");
    }
    RemoveAllPrefix("<", b);
    RemoveAllAbsent(b, "<");
  }

  /** An upper-bound token, with or without its operator: one trimmed,
      space-free token that gives no lower bound and upper bound `B`. */
  lemma UpperTokenText(op: string, b: string)
    requires op == "<=" || op == "<" || op == ""
    requires PlainVersion(b) && op + b != []
    ensures Trimmed(op + b) && ' ' !in op + b && !StartsWith(op + b, ">")
    ensures RemoveAll(RemoveAll(op + b, "<="), "<") == b
  {
    UpperTokenShape(op, b);
    if op == "" {
      assert op + b == b;
      PlainLacks(b);
      RemoveAllAbsent(b, "<=");
      RemoveAllAbsent(b, "<");
    } else {
      UpperToken(op, b);
    }
  }

  lemma UpperTokenShape(op: string, b: string)
    requires op == "<=" || op == "<" || op == ""
    requires PlainVersion(b) && op + b != []
    ensures Trimmed(op + b) && ' ' !in op + b && !StartsWith(op + b, ">")
  {
    PlainLacks(b);
    var t := op + b;
    assert t[0] != '>' && !IsSpace(t[0]) && !IsSpace(t[|t| - 1]);
    assert forall c :: c in t ==> c in op || c in b;
  }

  /** A lower-bound token: one trimmed token without spaces or `<`. */
  lemma LowerTokenText(op: string, a: string)
    requires op == ">=" || op == ">"
    requires PlainVersion(a)
    ensures Trimmed(op + a) && ' ' !in op + a && '<' !in op + a
  {
    PlainLacks(a);
    var t := op + a;
    assert !IsSpace(t[0]) && !IsSpace(t[|t| - 1]);
    assert forall c :: c in t ==> c in op || c in a;
  }

  /** A padded disjunct that is one token. */
  lemma PaddedToken(pad: string, t: string, pad': string)
    requires AllSpace(pad) && AllSpace(pad') && Trimmed(t) && ' ' !in t
    ensures DisjunctRange(pad + t + pad') == TokensRange([t])
  {
    StripPadded(pad, t, pad');
    SplitAbsent(t, " ");
  }

  /** A padded disjunct that is two tokens separated by one space. */
  lemma PaddedPair(pad: string, lo: string, hi: string, pad': string)
    requires AllSpace(pad) && AllSpace(pad') && lo != [] && hi != []
    requires !IsSpace(lo[0]) && !IsSpace(hi[|hi| - 1]) && ' ' !in lo && ' ' !in hi
    ensures DisjunctRange(pad + (lo + " " + hi) + pad') == TokensRange([lo, hi])
  {
    var t := lo + " " + hi;
    assert t[0] == lo[0] && t[|t| - 1] == hi[|hi| - 1];
    StripPadded(pad, t, pad');
    SplitTwo(lo, " ", hi);
    assert DisjunctRange(pad + t + pad') == TokensRange(Split(t, " "));
  }

  /** `<=B`, `<B` or a bare `B`, with any surrounding whitespace, gives
      `("", B)`. */
  lemma UpperOnly(pad: string, op: string, b: string, pad': string)
    requires op == "<=" || op == "<" || op == ""
    requires PlainVersion(b) && AllSpace(pad) && AllSpace(pad')
    requires op + b != []
    ensures DisjunctRange(pad + op + b + pad') == VersionRange("", b)
  {
    var t := op + b;
    var x := pad + op + b + pad';
    assert x == pad + t + pad';
    UpperTokenText(op, b);
    UpperTokenRange(pad, t, b, pad');
    assert DisjunctRange(x) == VersionRange("", b);
  }

  lemma UpperTokenRange(pad: string, t: string, b: string, pad': string)
    requires AllSpace(pad) && AllSpace(pad') && Trimmed(t) && ' ' !in t
    requires !StartsWith(t, ">") && RemoveAll(RemoveAll(t, "<="), "<") == b
    ensures DisjunctRange(pad + t + pad') == VersionRange("", b)
  {
    PaddedToken(pad, t, pad');
    assert Last([t]) == t;
  }

  /** `>=A <B` (either operator on either side) gives `(A, B)`. */
  lemma Bounded(pad: string, lop: string, a: string, uop: string, b: string, pad': string)
    requires lop == ">=" || lop == ">"
    requires uop == "<=" || uop == "<"
    requires PlainVersion(a) && PlainVersion(b) && AllSpace(pad) && AllSpace(pad')
    ensures DisjunctRange(pad + (lop + a + " " + uop + b) + pad') == VersionRange(a, b)
  {
    var lo := lop + a;
    var hi := uop + b;
    var x := pad + (lop + a + " " + uop + b) + pad';
    assert x == pad + (lo + " " + hi) + pad';
    LowerTokenText(lop, a);
    LowerToken(lop, a);
    UpperTokenText(uop, b);
    BoundedRange(pad, lo, a, hi, b, pad');
    assert DisjunctRange(x) == VersionRange(a, b);
  }

  lemma BoundedRange(pad: string, lo: string, a: string, hi: string, b: string, pad': string)
    requires AllSpace(pad) && AllSpace(pad') && Trimmed(lo) && Trimmed(hi) && lo != [] && hi != []
    requires ' ' !in lo && ' ' !in hi
    requires StartsWith(lo, ">") && RemoveAll(RemoveAll(lo, ">="), ">") == a
    requires RemoveAll(RemoveAll(hi, "<="), "<") == b
    ensures DisjunctRange(pad + (lo + " " + hi) + pad') == VersionRange(a, b)
  {
    PaddedPair(pad, lo, hi, pad');
    assert Last([lo, hi]) == hi;
  }

  /** A lone `>=A` keeps its operator in the upper bound: `(A, ">=A")`. */
  lemma LowerOnly(pad: string, lop: string, a: string, pad': string)
    requires lop == ">=" || lop == ">"
    requires PlainVersion(a) && AllSpace(pad) && AllSpace(pad')
    ensures DisjunctRange(pad + (lop + a) + pad') == VersionRange(a, lop + a)
  {
    var t := lop + a;
    var x := pad + (lop + a) + pad';
    assert x == pad + t + pad';
    LowerTokenText(lop, a);
    LowerToken(lop, a);
    RemoveAllAbsent(t, "<=");
    RemoveAllAbsent(t, "<");
    LowerTokenRange(pad, t, a, pad');
    assert DisjunctRange(x) == VersionRange(a, t);
  }

  lemma LowerTokenRange(pad: string, t: string, a: string, pad': string)
    requires AllSpace(pad) && AllSpace(pad') && Trimmed(t) && ' ' !in t
    requires StartsWith(t, ">") && RemoveAll(RemoveAll(t, ">="), ">") == a
    requires RemoveAll(RemoveAll(t, "<="), "<") == t
    ensures DisjunctRange(pad + t + pad') == VersionRange(a, t)
  {
    PaddedToken(pad, t, pad');
    assert Last([t]) == t;
  }

  /** `<=U || >=A <B`: two disjuncts, two pairs. */
  lemma UpperOrBounded(u: string, a: string, b: string)
    requires PlainVersion(u) && PlainVersion(a) && PlainVersion(b)
    ensures VersionRanges("<=" + u + " || >=" + a + " <" + b) == [VersionRange("", u), VersionRange(a, b)]
  {
    PlainLacks(u);
    PlainLacks(a);
    PlainLacks(b);
    var d0 := "" + "<=" + u + " ";
    var d1 := " " + (">=" + a + " " + "<" + b) + "";
    UpperOrBoundedShape(u, a, b);
    TwoRanges(d0, d1);
    UpperOnly("", "<=", u, " ");
    Bounded(" ", ">=", a, "<", b, "");
  }

  lemma UpperOrBoundedShape(u: string, a: string, b: string)
    ensures "<=" + u + " || >=" + a + " <" + b
         == ("" + "<=" + u + " ") + "||" + (" " + (">=" + a + " " + "<" + b) + "")
  {
  }

  /** Two disjuncts joined by `||` give their two ranges, in order. */
  lemma TwoRanges(d0: string, d1: string)
    requires '|' !in d0 && '|' !in d1
    ensures VersionRanges(d0 + "||" + d1) == [DisjunctRange(d0), DisjunctRange(d1)]
  {
    JoinTwo(d0, d1, "||");
    RangesOfDisjuncts([d0, d1]);
  }

  /** The documented example: `<=4.0.13 || >=4.1.0 <4.1.2`. */
  lemma TwoDisjuncts()
    ensures VersionRanges("<=4.0.13 || >=4.1.0 <4.1.2")
            == [VersionRange("", "4.0.13"), VersionRange("4.1.0", "4.1.2")]
  {
    PlainExample();
    assert "<=4.0.13 || >=4.1.0 <4.1.2" == "<=" + "4.0.13" + " || >=" + "4.1.0" + " <" + "4.1.2";
    UpperOrBounded("4.0.13", "4.1.0", "4.1.2");
  }

  lemma JoinTwo(x: string, y: string, sep: string)
    ensures Join([x, y], sep) == x + sep + y
  {
    assert [x, y][1..] == [y];
  }

  lemma PlainExample()
    ensures PlainVersion("4.0.13") && PlainVersion("4.1.0") && PlainVersion("4.1.2")
  {
  }

  // -----------------------------------------------------------------------
  // Records

  const NpmAssigner := "@npm"

  /** The ids an advisory fans out over: its CVE list, or its own id. */
  function IdsOf(v: Advisory): (ids: seq<string>)
    ensures |ids| >= 1
    ensures |v.cves| > 0 ==> ids == v.cves
    ensures |v.cves| == 0 ==> ids == [v.id]
  {
    if |v.cves| > 0 then v.cves else [v.id]
  }

  /** The title with every backtick deleted. */
  function Description(title: string): (d: string)
    ensures '`' !in d
    ensures forall c :: c != '`' ==> multiset(d)[c] == multiset(title)[c]
  {
    RemoveAllChar(title, '`');
    RemoveAll(title, "`")
  }

  /** The description keeps the title's other characters in their order. */
  lemma DescriptionInOrder(title: string)
    ensures Description(title) == Without(title, '`')
  {
    RemoveAllCharInOrder(title, '`');
  }

  /** The template fields for one id and one version range. */
  function RangeRecord(v: Advisory, cveId: string, range: VersionRange, defaults: Option<string> -> SeverityDefaults): AdvisoryRecord {
    var sev := defaults(v.severity);
    AdvisoryRecord(
      cveId := cveId,
      cweId := v.cwe,
      assigner := NpmAssigner,
      references := [Reference("npm advisory", v.url)],
      description := Description(v.title),
      vectorString := sev.vectorString,
      vendor := "npm",
      product := v.moduleName,
      version := "*",
      versionStart := range.start,
      versionEnd := range.end,
      severity := sev.severity,
      attackComplexity := sev.attackComplexity,
      score := sev.score,
      publishedDate := v.created,
      lastModifiedDate := v.updated)
  }

  /** The two nested loops: every id, and for each id every range. */
  function FanOut(v: Advisory, ids: seq<string>, ranges: seq<VersionRange>, defaults: Option<string> -> SeverityDefaults): (rs: seq<AdvisoryRecord>)
    ensures |rs| == |ids| * |ranges|
    ensures forall k :: 0 <= k < |rs| ==>
      && rs[k].vendor == "npm" && rs[k].product == v.moduleName && rs[k].assigner == NpmAssigner
      && rs[k].cveId in ids
      && VersionRange(rs[k].versionStart, rs[k].versionEnd) in ranges
    decreases |ids|
  {
    if ids == [] then []
    else
      var row := seq(|ranges|, j requires 0 <= j < |ranges| => RangeRecord(v, ids[0], ranges[j], defaults));
      assert forall j :: 0 <= j < |ranges| ==> VersionRange(row[j].versionStart, row[j].versionEnd) == ranges[j];
      row + FanOut(v, ids[1..], ranges, defaults)
  }

  /** Record `i * |ranges| + j` pairs id `i` with range `j`. */
  lemma {:induction false} FanOutAt(v: Advisory, ids: seq<string>, ranges: seq<VersionRange>,
                                    defaults: Option<string> -> SeverityDefaults, i: nat, j: nat)
    requires i < |ids| && j < |ranges|
    ensures i * |ranges| + j < |FanOut(v, ids, ranges, defaults)|
    ensures FanOut(v, ids, ranges, defaults)[i * |ranges| + j] == RangeRecord(v, ids[i], ranges[j], defaults)
    decreases i
  {
    var n := |ranges|;
    if i > 0 {
      assert ids[1..][i - 1] == ids[i];
      FanOutAt(v, ids[1..], ranges, defaults, i - 1, j);
      MulSucc(i, n);
    }
  }

  lemma MulSucc(i: nat, n: nat)
    requires i > 0
    ensures i * n == n + (i - 1) * n
  {
  }

  /** All records of one live advisory. */
  function AdvisoryRecords(v: Advisory, defaults: Option<string> -> SeverityDefaults): seq<AdvisoryRecord> {
    FanOut(v, IdsOf(v), VersionRanges(v.vulnerableVersions), defaults)
  }

  /** How many records one advisory yields: none when deleted, otherwise
      ids times disjuncts. */
  function EntryCount(v: Advisory): nat {
    if v.deleted then 0 else |IdsOf(v)| * (Count(v.vulnerableVersions, "||") + 1)
  }

  /** How many records the advisories yield. */
  function RecordCount(es: seq<(string, Advisory)>): nat {
    if es == [] then 0 else EntryCount(es[0].1) + RecordCount(es[1..])
  }

  /** The records of one entry of `advisories`: none when it is deleted. */
  function EntryRecords(v: Advisory, defaults: Option<string> -> SeverityDefaults): (rs: seq<AdvisoryRecord>)
    ensures |rs| == EntryCount(v)
    ensures forall k :: 0 <= k < |rs| ==> rs[k].vendor == "npm" && rs[k].assigner == NpmAssigner
    ensures !v.deleted ==> rs == AdvisoryRecords(v, defaults)
  {
    if v.deleted then []
    else
      var ranges := VersionRanges(v.vulnerableVersions);
      assert |ranges| == Count(v.vulnerableVersions, "||") + 1;
      AdvisoryRecords(v, defaults)
  }

  /** The loop over `advisories.items()`, skipping deleted ones. */
  function ConvertEntries(es: seq<(string, Advisory)>, defaults: Option<string> -> SeverityDefaults): (rs: seq<AdvisoryRecord>)
    ensures |rs| == RecordCount(es)
  {
    if es == [] then []
    else
      EntryRecords(es[0].1, defaults) + ConvertEntries(es[1..], defaults)
  }

  /** Every record the advisories yield has vendor `npm` and the npm
      assigner. */
  lemma {:induction false} ConvertEntriesFromNpm(es: seq<(string, Advisory)>, defaults: Option<string> -> SeverityDefaults)
    ensures forall k :: 0 <= k < |ConvertEntries(es, defaults)| ==>
      ConvertEntries(es, defaults)[k].vendor == "npm" && ConvertEntries(es, defaults)[k].assigner == NpmAssigner
    decreases |es|
  {
    if es != [] {
      ConvertEntriesFromNpm(es[1..], defaults);
      var head := EntryRecords(es[0].1, defaults);
      var rest := ConvertEntries(es[1..], defaults);
      var all := ConvertEntries(es, defaults);
      assert all == head + rest;
      forall k | 0 <= k < |all|
        ensures all[k].vendor == "npm" && all[k].assigner == NpmAssigner
      {
        if k < |head| {
          assert all[k] == head[k];
        } else {
          assert all[k] == rest[k - |head|];
        }
      }
    }
  }

  /** `convert`; a payload without `advisories` raises. */
  function Convert(p: Payload, defaults: Option<string> -> SeverityDefaults): (r: Result<seq<AdvisoryRecord>>)
    ensures r.Failure? <==> p.advisories.None?
    ensures p.advisories.Some? ==> r == Success(ConvertEntries(p.advisories.value, defaults))
    ensures r.Success? ==> |r.value| == RecordCount(p.advisories.value)
  {
    match p.advisories
    case None => Failure(MissingKey("advisories"))
    case Some(es) => Success(ConvertEntries(es, defaults))
  }

  lemma {:induction false} ConvertEntriesAppend(xs: seq<(string, Advisory)>, ys: seq<(string, Advisory)>,
                                                defaults: Option<string> -> SeverityDefaults)
    ensures ConvertEntries(xs + ys, defaults) == ConvertEntries(xs, defaults) + ConvertEntries(ys, defaults)
    decreases |xs|
  {
    if xs != [] {
      assert (xs + ys)[1..] == xs[1..] + ys;
      ConvertEntriesAppend(xs[1..], ys, defaults);
    } else {
      assert xs + ys == ys;
    }
  }

  /** A deleted advisory contributes nothing wherever it appears. */
  lemma DeletedSkipped(xs: seq<(string, Advisory)>, key: string, v: Advisory, ys: seq<(string, Advisory)>,
                       defaults: Option<string> -> SeverityDefaults)
    requires v.deleted
    ensures ConvertEntries(xs + [(key, v)] + ys, defaults) == ConvertEntries(xs + ys, defaults)
  {
    var one := [(key, v)];
    var front := xs + one;
    assert xs + [(key, v)] + ys == front + ys;
    var cx, cy := ConvertEntries(xs, defaults), ConvertEntries(ys, defaults);
    DeletedAlone(key, v, defaults);
    ConvertEntriesAppend(xs, one, defaults);
    assert cx + [] == cx;
    assert ConvertEntries(front, defaults) == cx;
    ConvertEntriesAppend(front, ys, defaults);
    assert ConvertEntries(front + ys, defaults) == cx + cy;
    ConvertEntriesAppend(xs, ys, defaults);
  }

  lemma DeletedAlone(key: string, v: Advisory, defaults: Option<string> -> SeverityDefaults)
    requires v.deleted
    ensures ConvertEntries([(key, v)], defaults) == []
  {
    assert [(key, v)][1..] == [];
    assert ConvertEntries([(key, v)], defaults) == EntryRecords(v, defaults) + ConvertEntries([], defaults);
  }

  /** Two CVE ids and a two-disjunct range give four records, id-major. */
  lemma TwoCvesTwoRanges(v: Advisory, c1: string, c2: string, defaults: Option<string> -> SeverityDefaults)
    requires !v.deleted && v.cves == [c1, c2]
    requires v.vulnerableVersions == "<=4.0.13 || >=4.1.0 <4.1.2"
    ensures var rs := AdvisoryRecords(v, defaults);
      && |rs| == 4
      && rs[0] == RangeRecord(v, c1, VersionRange("", "4.0.13"), defaults)
      && rs[1] == RangeRecord(v, c1, VersionRange("4.1.0", "4.1.2"), defaults)
      && rs[2] == RangeRecord(v, c2, VersionRange("", "4.0.13"), defaults)
      && rs[3] == RangeRecord(v, c2, VersionRange("4.1.0", "4.1.2"), defaults)
  {
    TwoDisjuncts();
    var ranges := VersionRanges(v.vulnerableVersions);
    FanOutAt(v, [c1, c2], ranges, defaults, 0, 0);
    FanOutAt(v, [c1, c2], ranges, defaults, 0, 1);
    FanOutAt(v, [c1, c2], ranges, defaults, 1, 0);
    FanOutAt(v, [c1, c2], ranges, defaults, 1, 1);
  }

  // -----------------------------------------------------------------------
  // bulk_search request body

  /** A package-list entry: a `{name, version}` object or a `...|name|version`
      string. */
  datatype PackageRef = PackageObject(name: Option<string>, version: Option<string>) | PackageText(text: string)

  datatype Pin = Pin(name: Option<string>, version: Option<string>)

  /** Name and version of one entry. For text the version is the last
      `|`-segment and the name the one before; Python's index `-1` makes a
      text without `|` serve as both name and version. */
  function PinOf(p: PackageRef): Pin {
    match p
    case PackageObject(n, v) => Pin(n, v)
    case PackageText(t) =>
      var parts := Split(t, "|");
      var k := if |parts| >= 2 then |parts| - 2 else |parts| - 1;
      Pin(Some(parts[k]), Some(Last(parts)))
  }

  /** `group|name|version` text parses to name and version. */
  lemma PinOfText(segments: seq<string>)
    requires |segments| >= 1
    requires forall i :: 0 <= i < |segments| ==> '|' !in segments[i]
    ensures |segments| >= 2 ==> PinOf(PackageText(Join(segments, "|")))
                                == Pin(Some(segments[|segments| - 2]), Some(Last(segments)))
    ensures |segments| == 1 ==> PinOf(PackageText(Join(segments, "|"))) == Pin(Some(segments[0]), Some(segments[0]))
  {
    var t := Join(segments, "|");
    SplitJoin(segments, "|");
    PinOfParts(t, segments);
  }

  lemma PinOfParts(t: string, parts: seq<string>)
    requires Split(t, "|") == parts
    ensures PinOf(PackageText(t)) == Pin(Some(parts[if |parts| >= 2 then |parts| - 2 else |parts| - 1]), Some(Last(parts)))
  {
  }

  datatype Dependency = Dependency(version: Option<string>)

  /** The request body: the caller's fields, with `requires` and
      `dependencies` set last. */
  datatype SearchBody<A> = SearchBody(
    appInfo: map<string, A>,
    requirements: map<Option<string>, Option<string>>,
    dependencies: map<Option<string>, Dependency>)

  /** No later entry of `pkgs` has the same name as entry `i`. */
  predicate LastOfName(pkgs: seq<PackageRef>, i: int)
    requires 0 <= i < |pkgs|
  {
    forall j :: i < j < |pkgs| ==> PinOf(pkgs[j]).name != PinOf(pkgs[i]).name
  }

  /** The package loop of `bulk_search` over parsed entries: a later entry
      with the same name overwrites an earlier one in both maps. */
  method CollectPins(pins: seq<Pin>) returns (required: map<Option<string>, Option<string>>, dependencies: map<Option<string>, Dependency>)
    ensures required.Keys == (set i | 0 <= i < |pins| :: pins[i].name)
    ensures dependencies.Keys == required.Keys
    ensures forall i :: 0 <= i < |pins| && (forall j :: i < j < |pins| ==> pins[j].name != pins[i].name) ==>
      required[pins[i].name] == pins[i].version
    ensures forall k :: k in dependencies ==> dependencies[k] == Dependency(required[k])
  {
    required := map[];
    dependencies := map[];
    var n := 0;
    while n < |pins|
      invariant 0 <= n <= |pins|
      invariant required.Keys == (set i | 0 <= i < n :: pins[i].name)
      invariant dependencies.Keys == required.Keys
      invariant forall i :: 0 <= i < n && (forall j :: i < j < n ==> pins[j].name != pins[i].name) ==>
        required[pins[i].name] == pins[i].version
      invariant forall k :: k in dependencies ==> dependencies[k] == Dependency(required[k])
    {
      var pin := pins[n];
      required := required[pin.name := pin.version];
      dependencies := dependencies[pin.name := Dependency(pin.version)];
      n := n + 1;
    }
  }

  /** The request body `bulk_search` posts: the caller's fields, then one
      `requires` and one `dependencies` entry per package name, holding the
      version of that name's last entry. */
  method SearchBodyOf<A>(appInfo: map<string, A>, pkgs: seq<PackageRef>) returns (body: SearchBody<A>)
    ensures body.requirements.Keys == (set i | 0 <= i < |pkgs| :: PinOf(pkgs[i]).name)
    ensures body.dependencies.Keys == body.requirements.Keys
    ensures forall i :: 0 <= i < |pkgs| && LastOfName(pkgs, i) ==>
      body.requirements[PinOf(pkgs[i]).name] == PinOf(pkgs[i]).version
    ensures forall k :: k in body.dependencies ==> body.dependencies[k] == Dependency(body.requirements[k])
    ensures body.appInfo.Keys == appInfo.Keys - {"requires", "dependencies"}
    ensures forall k :: k in body.appInfo ==> body.appInfo[k] == appInfo[k]
  {
    var pins := seq(|pkgs|, i requires 0 <= i < |pkgs| => PinOf(pkgs[i]));
    var required, dependencies := CollectPins(pins);
    assert forall i :: 0 <= i < |pkgs| ==> pins[i] == PinOf(pkgs[i]);
    assert (set i | 0 <= i < |pins| :: pins[i].name) == (set i | 0 <= i < |pkgs| :: PinOf(pkgs[i]).name);
    var fields := map k | k in appInfo && k != "requires" && k != "dependencies" :: appInfo[k];
    body := SearchBody(fields, required, dependencies);
  }
}

=== FILE: nvd.dfy ===
/** The NVD yearly-feed adapter (`NvdSource`): CVE items to canonical
    vulnerability records, with details read off the configuration-node
    tree. */
module Nvd {
  import opened Records

  /** One `cpe_match` entry; an absent version key is `None`. */
  datatype CpeMatch = CpeMatch(
    vulnerable: bool,
    cpe23Uri: string,
    versionStartIncluding: Option<string>,
    versionStartExcluding: Option<string>,
    versionEndIncluding: Option<string>,
    versionEndExcluding: Option<string>)

  /** A configuration node. Absent `children` reads as the empty list;
      `cpeMatch` is `None` when the key is absent. */
  datatype ConfigNode = ConfigNode(operator: string, children: seq<ConfigNode>, cpeMatch: Option<seq<CpeMatch>>)

  /** One `problemtype_data` entry: the `value`s of its `description`. */
  datatype ProblemType = ProblemType(values: seq<string>)

  datatype CvssData = CvssData(
    baseScore: real,
    attackVector: string,
    attackComplexity: string,
    privilegesRequired: string,
    userInteraction: string,
    scope: string,
    confidentialityImpact: string,
    integrityImpact: string,
    availabilityImpact: string,
    baseSeverity: string)

  datatype BaseMetricV3 = BaseMetricV3(cvssV3: CvssData, exploitabilityScore: real, impactScore: real)

  /** One element of `CVE_Items`. `descriptions` are the `value`s of
      `description_data`, `referenceUrls` the `url`s of `reference_data`. */
  datatype CveItem = CveItem(
    id: string,
    problemTypes: seq<ProblemType>,
    descriptions: seq<string>,
    referenceUrls: seq<string>,
    baseMetricV3: Option<BaseMetricV3>,
    nodes: seq<ConfigNode>,
    lastModifiedDate: string)

  datatype Feed = Feed(items: Option<seq<CveItem>>)

  // -----------------------------------------------------------------------
  // Details

  /** `cpe.get(including, cpe.get(excluding))`. */
  function BoundOf(including: Option<string>, excluding: Option<string>): (b: Option<string>)
    ensures b.None? <==> including.None? && excluding.None?
    ensures b.Some? ==> b == including || (including.None? && b == excluding)
  {
    if including.Some? then including else excluding
  }

  /** The detail a vulnerable entry becomes. */
  function DetailOf(c: CpeMatch, updated: string): VulnerabilityDetail {
    VulnerabilityDetail(
      c.cpe23Uri,
      BoundOf(c.versionStartIncluding, c.versionStartExcluding),
      BoundOf(c.versionEndIncluding, c.versionEndExcluding),
      updated)
  }

  /** The `cpe_match` lists of all children, in order; a child without one
      raises. */
  function ChildrenCpes(children: seq<ConfigNode>): (r: Result<seq<CpeMatch>>)
    ensures r.Success? <==> forall i :: 0 <= i < |children| ==> children[i].cpeMatch.Some?
  {
    if children == [] then Success([])
    else match children[0].cpeMatch
      case None => Failure(MissingKey("cpe_match"))
      case Some(cs) =>
        match ChildrenCpes(children[1..])
        case Failure(e) => Failure(e)
        case Success(rest) => Success(cs + rest)
  }

  /** The entries one top-level node contributes: for `AND`, its children's
      lists followed by its own; otherwise its own list only. */
  function NodeCpes(n: ConfigNode): (r: Result<seq<CpeMatch>>)
    ensures n.operator != "AND" ==> r == Success(n.cpeMatch.GetOr([]))
    ensures r.Failure? ==> n.operator == "AND"
  {
    if n.operator == "AND" then
      match ChildrenCpes(n.children)
      case Failure(e) => Failure(e)
      case Success(cs) => Success(cs + n.cpeMatch.GetOr([]))
    else Success(n.cpeMatch.GetOr([]))
  }

  /** The vulnerable entries, as details, in order. */
  function VulnerableDetails(cs: seq<CpeMatch>, updated: string): (ds: seq<VulnerabilityDetail>)
    ensures |ds| <= |cs|
    ensures ds == [] <==> forall i :: 0 <= i < |cs| ==> !cs[i].vulnerable
    ensures forall k :: 0 <= k < |ds| ==> ds[k].sourceUpdateTime == updated
  {
    if cs == [] then []
    else
      var rest := VulnerableDetails(cs[1..], updated);
      assert forall i :: 1 <= i < |cs| ==> cs[i] == cs[1..][i - 1];
      if cs[0].vulnerable then [DetailOf(cs[0], updated)] + rest else rest
  }

  /** The recursion step: a vulnerable head contributes its detail in
      front of the details of the rest. */
  lemma VulnerableDetailsStep(cs: seq<CpeMatch>, updated: string)
    requires cs != []
    ensures VulnerableDetails(cs, updated)
            == (if cs[0].vulnerable then [DetailOf(cs[0], updated)] else []) + VulnerableDetails(cs[1..], updated)
  {
  }

  /** Every vulnerable entry becomes a detail. */
  lemma {:induction false} VulnerableDetailsComplete(cs: seq<CpeMatch>, updated: string, i: nat)
    requires i < |cs| && cs[i].vulnerable
    ensures DetailOf(cs[i], updated) in VulnerableDetails(cs, updated)
    decreases i
  {
    VulnerableDetailsStep(cs, updated);
    if i > 0 {
      var tail := cs[1..];
      assert cs[i] == tail[i - 1];
      VulnerableDetailsComplete(tail, updated, i - 1);
    }
  }

  /** Every detail comes from a vulnerable entry. */
  lemma {:induction false} VulnerableDetailsSound(cs: seq<CpeMatch>, updated: string, k: nat)
    requires k < |VulnerableDetails(cs, updated)|
    ensures exists i :: 0 <= i < |cs| && cs[i].vulnerable && VulnerableDetails(cs, updated)[k] == DetailOf(cs[i], updated)
    decreases |cs|
  {
    var ds := VulnerableDetails(cs, updated);
    VulnerableDetailsStep(cs, updated);
    var tail := cs[1..];
    var rest := VulnerableDetails(tail, updated);
    if cs[0].vulnerable && k == 0 {
      assert ds[0] == DetailOf(cs[0], updated);
    } else {
      var k' := if cs[0].vulnerable then k - 1 else k;
      assert ds[k] == rest[k'];
      VulnerableDetailsSound(tail, updated, k');
      var i :| 0 <= i < |tail| && tail[i].vulnerable && rest[k'] == DetailOf(tail[i], updated);
      assert cs[i + 1] == tail[i];
    }
  }

  /** The loop over `configurations.nodes`: details of every node, in node
      order; the first failing node raises. */
  function NodesDetails(nodes: seq<ConfigNode>, updated: string): (r: Result<seq<VulnerabilityDetail>>)
    ensures r.Success? <==> forall i :: 0 <= i < |nodes| ==> NodeCpes(nodes[i]).Success?
    ensures r.Success? ==> forall k :: 0 <= k < |r.value| ==> r.value[k].sourceUpdateTime == updated
  {
    if nodes == [] then Success([])
    else match NodeCpes(nodes[0])
      case Failure(e) => Failure(e)
      case Success(cs) =>
        match NodesDetails(nodes[1..], updated)
        case Failure(e) => Failure(e)
        case Success(rest) =>
          var ds := VulnerableDetails(cs, updated);
          assert forall k :: 0 <= k < |ds| ==> ds[k].sourceUpdateTime == updated;
          Success(ds + rest)
  }

  /** The recursion step of the node loop. */
  lemma NodesDetailsStep(nodes: seq<ConfigNode>, updated: string)
    requires nodes != [] && NodesDetails(nodes, updated).Success?
    ensures NodeCpes(nodes[0]).Success? && NodesDetails(nodes[1..], updated).Success?
    ensures NodesDetails(nodes, updated).value
            == VulnerableDetails(NodeCpes(nodes[0]).value, updated) + NodesDetails(nodes[1..], updated).value
  {
  }

  /** `d` is the detail of a vulnerable entry of `cs`. */
  ghost predicate DetailOfVulnerable(cs: seq<CpeMatch>, updated: string, d: VulnerabilityDetail) {
    exists m :: 0 <= m < |cs| && cs[m].vulnerable && d == DetailOf(cs[m], updated)
  }

  /** Every vulnerable entry of every node becomes a detail of the item. */
  lemma {:induction false} NodesDetailsComplete(nodes: seq<ConfigNode>, updated: string, i: nat, m: nat)
    requires NodesDetails(nodes, updated).Success?
    requires i < |nodes| && m < |NodeCpes(nodes[i]).value| && NodeCpes(nodes[i]).value[m].vulnerable
    ensures DetailOf(NodeCpes(nodes[i]).value[m], updated) in NodesDetails(nodes, updated).value
    decreases i
  {
    NodesDetailsStep(nodes, updated);
    var tail := nodes[1..];
    if i == 0 {
      VulnerableDetailsComplete(NodeCpes(nodes[0]).value, updated, m);
    } else {
      assert tail[i - 1] == nodes[i];
      NodesDetailsComplete(tail, updated, i - 1, m);
    }
  }

  /** Every detail of the item is the detail of a vulnerable entry of one
      of its nodes. */
  lemma {:induction false} NodesDetailsSound(nodes: seq<ConfigNode>, updated: string, k: nat)
    requires NodesDetails(nodes, updated).Success? && k < |NodesDetails(nodes, updated).value|
    ensures exists i :: 0 <= i < |nodes| && NodeCpes(nodes[i]).Success?
                        && DetailOfVulnerable(NodeCpes(nodes[i]).value, updated, NodesDetails(nodes, updated).value[k])
    decreases |nodes|
  {
    var ds := NodesDetails(nodes, updated).value;
    NodesDetailsStep(nodes, updated);
    var cs := NodeCpes(nodes[0]).value;
    var head := VulnerableDetails(cs, updated);
    var tail := nodes[1..];
    var rest := NodesDetails(tail, updated).value;
    assert ds == head + rest;
    if k < |head| {
      assert ds[k] == head[k];
      VulnerableDetailsSound(cs, updated, k);
      assert DetailOfVulnerable(cs, updated, ds[k]);
    } else {
      assert ds[k] == rest[k - |head|];
      NodesDetailsSound(tail, updated, k - |head|);
      var i :| 0 <= i < |tail| && NodeCpes(tail[i]).Success?
               && DetailOfVulnerable(NodeCpes(tail[i]).value, updated, rest[k - |head|]);
      assert nodes[i + 1] == tail[i];
    }
  }

  /** `convert_vuln_detail`: `None` when no entry is vulnerable. */
  function ConvertVulnDetail(item: CveItem): (r: Result<Option<seq<VulnerabilityDetail>>>)
    ensures r.Success? <==> NodesDetails(item.nodes, item.lastModifiedDate).Success?
    ensures NodesDetails(item.nodes, item.lastModifiedDate) == Success([]) ==> r == Success(None)
    ensures r.Success? && r.value.Some? ==>
      |r.value.value| > 0 && r.value.value == NodesDetails(item.nodes, item.lastModifiedDate).value
  {
    match NodesDetails(item.nodes, item.lastModifiedDate)
    case Failure(e) => Failure(e)
    case Success(ds) => Success(if ds == [] then None else Some(ds))
  }

  // -----------------------------------------------------------------------
  // Records

  /** The first description value of the first problem-type entry, or `""`. */
  function ProblemTypeOf(pts: seq<ProblemType>): (p: string)
    ensures p != "" ==> |pts| > 0 && |pts[0].values| > 0 && p == pts[0].values[0]
    ensures |pts| > 0 && |pts[0].values| > 0 ==> p == pts[0].values[0]
    ensures |pts| == 0 || |pts[0].values| == 0 ==> p == ""
  {
    if |pts| > 0 && |pts[0].values| > 0 then pts[0].values[0] else ""
  }

  function CvssOf(m: BaseMetricV3): CvssV3 {
    CvssV3(
      baseScore := m.cvssV3.baseScore,
      exploitabilityScore := m.exploitabilityScore,
      impactScore := m.impactScore,
      attackVector := m.cvssV3.attackVector,
      attackComplexity := m.cvssV3.attackComplexity,
      privilegesRequired := m.cvssV3.privilegesRequired,
      userInteraction := m.cvssV3.userInteraction,
      scope := m.cvssV3.scope,
      confidentialityImpact := m.cvssV3.confidentialityImpact,
      integrityImpact := m.cvssV3.integrityImpact,
      availabilityImpact := m.cvssV3.availabilityImpact)
  }

  /** `convert_vuln`: an empty `description_data` raises before anything
      else is looked at; an item without details is dropped (`None`). */
  function ConvertVuln(item: CveItem): (r: Result<Option<Vulnerability>>)
    ensures r.Failure? <==> |item.descriptions| == 0 || NodesDetails(item.nodes, item.lastModifiedDate).Failure?
    ensures r == Success(None) <==> |item.descriptions| > 0 && NodesDetails(item.nodes, item.lastModifiedDate) == Success([])
    ensures r.Success? && r.value.Some? ==>
      var v := r.value.value;
      && v.id == item.id
      && |v.details| > 0
      && v.relatedUrls == item.referenceUrls
      && v.description == item.descriptions[0]
      && v.lastModifiedDate == item.lastModifiedDate
      && v.problemType == ProblemTypeOf(item.problemTypes)
      && v.details == NodesDetails(item.nodes, item.lastModifiedDate).value
      && (item.baseMetricV3.None? ==> v.cvssV3.None? && v.severity.None? && v.baseScore.None?)
      && (item.baseMetricV3.Some? ==>
            && v.cvssV3 == Some(CvssOf(item.baseMetricV3.value))
            && v.baseScore == Some(item.baseMetricV3.value.cvssV3.baseScore)
            && v.severity == Some(item.baseMetricV3.value.cvssV3.baseSeverity))
  {
    if |item.descriptions| == 0 then Failure(EmptyList("description_data"))
    else
      var cvss := if item.baseMetricV3.Some? then Some(CvssOf(item.baseMetricV3.value)) else None;
      var severity := if item.baseMetricV3.Some? then Some(item.baseMetricV3.value.cvssV3.baseSeverity) else None;
      var score := if cvss.Some? then Some(cvss.value.baseScore) else None;
      match ConvertVulnDetail(item)
      case Failure(e) => Failure(e)
      case Success(None) => Success(None)
      case Success(Some(details)) =>
        Success(Some(Vulnerability(
          item.id, ProblemTypeOf(item.problemTypes), score, severity, item.descriptions[0],
          item.referenceUrls, details, cvss, item.lastModifiedDate)))
  }

  /** The items that survive `convert_vuln`, in order, when none raises. */
  function Kept(items: seq<CveItem>): seq<Vulnerability> {
    if items == [] then [] else Survivor(items[0]) + Kept(items[1..])
  }

  /** The record one item contributes when it does not raise. */
  function Survivor(item: CveItem): seq<Vulnerability> {
    var r := ConvertVuln(item);
    if r.Success? && r.value.Some? then [r.value.value] else []
  }

  /** The loop of `convert`; the first raising item aborts the feed. */
  function ConvertItems(items: seq<CveItem>): Result<seq<Vulnerability>> {
    if items == [] then Success([])
    else match ConvertVuln(items[0])
      case Failure(e) => Failure(e)
      case Success(o) =>
        match ConvertItems(items[1..])
        case Failure(e) => Failure(e)
        case Success(rest) => Success((if o.Some? then [o.value] else []) + rest)
  }

  /** `convert`; a feed without `CVE_Items` raises. */
  function Convert(feed: Feed): (r: Result<seq<Vulnerability>>)
    ensures feed.items.None? ==> r.Failure?
  {
    match feed.items
    case None => Failure(MissingKey("CVE_Items"))
    case Some(items) => ConvertItems(items)
  }

  // -----------------------------------------------------------------------
  // Lemmas

  /** `convert` succeeds exactly when no item raises, and then keeps exactly
      the items `convert_vuln` turns into a record, in input order. */
  lemma {:induction false} ConvertKeepsSurvivors(items: seq<CveItem>)
    ensures ConvertItems(items).Success? <==> forall i :: 0 <= i < |items| ==> ConvertVuln(items[i]).Success?
    ensures ConvertItems(items).Success? ==> ConvertItems(items).value == Kept(items)
    decreases |items|
  {
    if items != [] {
      ConvertKeepsSurvivors(items[1..]);
      assert forall i :: 1 <= i < |items| ==> items[i] == items[1..][i - 1];
    }
  }

  /** A feed with `CVE_Items` converts exactly when no item raises, to the
      surviving records in item order. */
  lemma ConvertFeed(feed: Feed)
    requires feed.items.Some?
    ensures Convert(feed).Success? <==> forall i :: 0 <= i < |feed.items.value| ==> ConvertVuln(feed.items.value[i]).Success?
    ensures Convert(feed).Success? ==> Convert(feed).value == Kept(feed.items.value)
  {
    ConvertKeepsSurvivors(feed.items.value);
  }

  lemma {:induction false} KeptAppend(xs: seq<CveItem>, ys: seq<CveItem>)
    ensures Kept(xs + ys) == Kept(xs) + Kept(ys)
    decreases |xs|
  {
    if xs == [] {
      assert xs + ys == ys;
    } else {
      assert (xs + ys)[1..] == xs[1..] + ys;
      KeptAppend(xs[1..], ys);
    }
  }

  /** An item that converts to nothing is dropped wherever it appears. */
  lemma NoDetailsDropped(xs: seq<CveItem>, item: CveItem, ys: seq<CveItem>)
    requires ConvertVuln(item) == Success(None)
    ensures Kept(xs + [item] + ys) == Kept(xs + ys)
  {
    assert Survivor(item) == [];
    assert [item][1..] == [];
    assert Kept([item]) == Survivor(item) + Kept([]);
    KeptAppend(xs + [item], ys);
    KeptAppend(xs, [item]);
    KeptAppend(xs, ys);
  }

  /** Children of a node that is not `AND` are never looked at. */
  lemma NonAndIgnoresChildren(n: ConfigNode, others: seq<ConfigNode>)
    requires n.operator != "AND"
    ensures NodeCpes(n.(children := others)) == NodeCpes(n)
  {
  }

  /** All children's lists, in order, flattened. */
  function ChildLists(children: seq<ConfigNode>): seq<CpeMatch> {
    if children == [] then [] else children[0].cpeMatch.GetOr([]) + ChildLists(children[1..])
  }

  /** An `AND` node contributes its children's lists followed by its own. */
  lemma {:induction false} AndCollectsChildren(n: ConfigNode)
    requires n.operator == "AND"
    requires forall i :: 0 <= i < |n.children| ==> n.children[i].cpeMatch.Some?
    ensures NodeCpes(n) == Success(ChildLists(n.children) + n.cpeMatch.GetOr([]))
  {
    ChildrenFlatten(n.children);
  }

  lemma {:induction false} ChildrenFlatten(children: seq<ConfigNode>)
    requires forall i :: 0 <= i < |children| ==> children[i].cpeMatch.Some?
    ensures ChildrenCpes(children) == Success(ChildLists(children))
    decreases |children|
  {
    if children != [] {
      ChildrenFlatten(children[1..]);
    }
  }

  /** Every detail bound is the `Including` value when present, else the
      `Excluding` one. */
  lemma BoundsFallBack(c: CpeMatch, updated: string)
    ensures c.versionStartIncluding.Some? ==> DetailOf(c, updated).minAffectedVersion == c.versionStartIncluding
    ensures c.versionStartIncluding.None? ==> DetailOf(c, updated).minAffectedVersion == c.versionStartExcluding
    ensures c.versionEndIncluding.Some? ==> DetailOf(c, updated).maxAffectedVersion == c.versionEndIncluding
    ensures c.versionEndIncluding.None? ==> DetailOf(c, updated).maxAffectedVersion == c.versionEndExcluding
    ensures DetailOf(c, updated).cpeUri == c.cpe23Uri && DetailOf(c, updated).sourceUpdateTime == updated
  {
  }

  /** A CVE item with a description whose only node is not `AND` and has
      an empty `cpe_match` list yields no details and is dropped. */
  lemma EmptyNodeDropped(item: CveItem, op: string)
    requires |item.descriptions| > 0
    requires op != "AND"
    requires |item.nodes| == 1 && item.nodes[0].operator == op && item.nodes[0].cpeMatch == Some([])
    ensures ConvertVuln(item) == Success(None)
  {
    assert item.nodes[1..] == [];
    assert NodeCpes(item.nodes[0]) == Success([]);
    assert VulnerableDetails([], item.lastModifiedDate) == [];
    assert NodesDetails(item.nodes[1..], item.lastModifiedDate) == Success([]);
    assert NodesDetails(item.nodes, item.lastModifiedDate) == Success([] + []);
  }
}

=== FILE: pystrings.dfy ===
/** The handful of Python `str` operations the adapters rely on:
    `startswith`, `replace(p, "")`, `split(sep)`, `count(sep)` and `re.split`
    on a character class as CPython defines them, `strip()` over the Latin-1
    whitespace set and `lower()` on ASCII letters. Every scan is
    leftmost-first and non-overlapping, as in CPython. */
module PyStrings {

  /** `s.startswith(p)` */
  predicate StartsWith(s: string, p: string) {
    |p| <= |s| && s[..|p|] == p
  }

  /** `s.count(p)`: the number of non-overlapping occurrences found scanning
      from the left. */
  function Count(s: string, p: string): nat
    requires p != []
    decreases |s|
  {
    if |s| < |p| then 0
    else if s[..|p|] == p then 1 + Count(s[|p|..], p)
    else Count(s[1..], p)
  }

  /** `s.replace(p, "")`: every non-overlapping occurrence of `p`, scanning
      from the left, is deleted (not only a leading one). */
  function RemoveAll(s: string, p: string): (r: string)
    requires p != []
    ensures |r| == |s| - |p| * Count(s, p)
    decreases |s|
  {
    if |s| < |p| then s
    else if s[..|p|] == p then
      var n := Count(s[|p|..], p);
      assert |p| * (1 + n) == |p| + |p| * n;
      RemoveAll(s[|p|..], p)
    else [s[0]] + RemoveAll(s[1..], p)
  }

  /** `s.split(sep)` for a non-empty separator. */
  function Split(s: string, sep: string): (parts: seq<string>)
    requires sep != []
    ensures |parts| == Count(s, sep) + 1
    decreases |s|
  {
    if |s| < |sep| then [s]
    else if s[..|sep|] == sep then [""] + Split(s[|sep|..], sep)
    else
      var rest := Split(s[1..], sep);
      [[s[0]] + rest[0]] + rest[1..]
  }

  /** `sep.join(parts)`, the inverse of `Split`. */
  function Join(parts: seq<string>, sep: string): string
    requires |parts| >= 1
    decreases |parts|
  {
    if |parts| == 1 then parts[0] else parts[0] + sep + Join(parts[1..], sep)
  }

  function Last<T>(xs: seq<T>): T
    requires |xs| >= 1
  {
    xs[|xs| - 1]
  }

  /** The characters `str.isspace` accepts in the Latin-1 range. */
  predicate IsSpace(c: char) {
    c == ' ' || c == '\t' || c == '\n' || c == '\r' || c == '\U{B}' || c == '\U{C}'
    || c == '\U{1C}' || c == '\U{1D}' || c == '\U{1E}' || c == '\U{1F}'
    || c == '\U{85}' || c == '\U{A0}'
  }

  predicate AllSpace(s: string) {
    forall i :: 0 <= i < |s| ==> IsSpace(s[i])
  }

  /** No whitespace at either end: what `strip()` produces. */
  predicate Trimmed(s: string) {
    s == [] || (!IsSpace(s[0]) && !IsSpace(s[|s| - 1]))
  }

  /** Number of leading whitespace characters. */
  function LeadingSpace(s: string): (n: nat)
    ensures n <= |s|
    ensures AllSpace(s[..n])
    ensures n < |s| ==> !IsSpace(s[n])
    decreases |s|
  {
    if s == [] || !IsSpace(s[0]) then 0
    else
      var k := LeadingSpace(s[1..]);
      assert s[..k + 1] == [s[0]] + s[1..][..k];
      k + 1
  }

  /** Number of trailing whitespace characters. */
  function TrailingSpace(s: string): (n: nat)
    ensures n <= |s|
    ensures AllSpace(s[|s| - n..])
    ensures n < |s| ==> !IsSpace(s[|s| - n - 1])
    decreases |s|
  {
    if s == [] || !IsSpace(s[|s| - 1]) then 0
    else
      var k := TrailingSpace(s[..|s| - 1]);
      assert s[|s| - (k + 1)..] == s[..|s| - 1][|s| - 1 - k..] + [s[|s| - 1]];
      k + 1
  }

  /** `s.strip()`: the slice of `s` left after dropping whitespace at both
      ends. */
  function Strip(s: string): (r: string)
    ensures Trimmed(r)
    ensures exists i | 0 <= i <= |s| - |r| :: s[i..i + |r|] == r && AllSpace(s[..i]) && AllSpace(s[i + |r|..])
  {
    var a := LeadingSpace(s);
    var t := s[a..];
    var b := TrailingSpace(t);
    var r := t[..|t| - b];
    assert s[a..a + |r|] == r;
    assert s[a + |r|..] == t[|t| - b..];
    assert AllSpace(s[..a]) && AllSpace(s[a + |r|..]);
    assert r != [] ==> r[0] == s[a] && r[|r| - 1] == t[|t| - b - 1];
    assert Trimmed(r);
    r
  }

  /** Python's `lower()` on the ASCII letters. */
  function LowerChar(c: char): char {
    if 'A' <= c <= 'Z' then (c as int - 'A' as int + 'a' as int) as char else c
  }

  function Lower(s: string): (r: string)
    ensures |r| == |s|
    ensures forall i :: 0 <= i < |s| ==> !('A' <= r[i] <= 'Z')
    ensures forall i :: 0 <= i < |s| && !('A' <= s[i] <= 'Z') ==> r[i] == s[i]
    ensures forall i :: 0 <= i < |s| && 'A' <= s[i] <= 'Z' ==> r[i] as int - s[i] as int == 'a' as int - 'A' as int
  {
    seq(|s|, i requires 0 <= i < |s| => LowerChar(s[i]))
  }

  /** `re.split("[...]", s)` for a character class `cs`: cut at every
      character of `cs`, dropping it. */
  function SplitAny(s: string, cs: set<char>): (parts: seq<string>)
    ensures |parts| >= 1
    decreases |s|
  {
    if s == [] then [""]
    else if s[0] in cs then [""] + SplitAny(s[1..], cs)
    else
      var rest := SplitAny(s[1..], cs);
      [[s[0]] + rest[0]] + rest[1..]
  }

  predicate NoneIn(s: string, cs: set<char>) {
    forall i :: 0 <= i < |s| ==> s[i] !in cs
  }

  // ---------------------------------------------------------------------
  // Lemmas about `strip`

  lemma {:induction false} LeadingSpaceOver(a: string, x: string)
    requires AllSpace(a) && (x == [] || !IsSpace(x[0]))
    ensures LeadingSpace(a + x) == |a|
    decreases |a|
  {
    if a == [] {
      assert a + x == x;
    } else {
      assert (a + x)[1..] == a[1..] + x;
      LeadingSpaceOver(a[1..], x);
    }
  }

  lemma {:induction false} TrailingSpaceOver(x: string, b: string)
    requires AllSpace(b) && (x == [] || !IsSpace(x[|x| - 1]))
    ensures TrailingSpace(x + b) == |b|
    decreases |b|
  {
    if b == [] {
      assert x + b == x;
    } else {
      assert (x + b)[..|x + b| - 1] == x + b[..|b| - 1];
      TrailingSpaceOver(x, b[..|b| - 1]);
    }
  }

  /** `strip` removes exactly the whitespace padding around trimmed text. */
  lemma StripPadded(a: string, d: string, b: string)
    requires AllSpace(a) && AllSpace(b) && Trimmed(d)
    ensures Strip(a + d + b) == d
  {
    var s := a + d + b;
    if d == [] {
      assert s == (a + b) + [];
      assert AllSpace(a + b);
      LeadingSpaceOver(a + b, []);
    } else {
      assert s == a + (d + b);
      LeadingSpaceOver(a, d + b);
      assert s[|a|..] == d + b;
      TrailingSpaceOver(d, b);
      assert (d + b)[..|d + b| - |b|] == d;
    }
  }

  // ---------------------------------------------------------------------
  // Lemmas about `replace`

  /** Deleting `p` from text that cannot contain it changes nothing. */
  lemma {:induction false} RemoveAllAbsent(s: string, p: string)
    requires p != [] && p[0] !in s
    ensures RemoveAll(s, p) == s
    decreases |s|
  {
    if |s| >= |p| {
      assert s[..|p|][0] == s[0];
      RemoveAllAbsent(s[1..], p);
      assert [s[0]] + s[1..] == s;
    }
  }

  /** A leading occurrence is deleted and the scan resumes after it. */
  lemma RemoveAllPrefix(p: string, x: string)
    requires p != []
    ensures RemoveAll(p + x, p) == RemoveAll(x, p)
  {
    assert (p + x)[..|p|] == p;
    assert (p + x)[|p|..] == x;
  }

  /** Text that does not start with `p` keeps its first character. */
  lemma RemoveAllSkip(c: char, x: string, p: string)
    requires p != [] && !StartsWith([c] + x, p)
    ensures RemoveAll([c] + x, p) == [c] + RemoveAll(x, p)
  {
    assert ([c] + x)[1..] == x;
  }

  /** The characters of `s` other than `c`, in their order. */
  function Without(s: string, c: char): string {
    if s == [] then []
    else Without(s[..|s| - 1], c) + (if s[|s| - 1] == c then [] else [s[|s| - 1]])
  }

  lemma {:induction false} WithoutAppend(a: string, b: string, c: char)
    ensures Without(a + b, c) == Without(a, c) + Without(b, c)
    decreases |b|
  {
    if b == [] {
      assert a + b == a;
    } else {
      var n := |b| - 1;
      assert (a + b)[..|a + b| - 1] == a + b[..n];
      WithoutAppend(a, b[..n], c);
    }
  }

  /** Deleting a single character keeps exactly the other characters. */
  lemma {:induction false} RemoveAllChar(s: string, c: char)
    ensures c !in RemoveAll(s, [c])
    ensures forall d :: d != c ==> multiset(RemoveAll(s, [c]))[d] == multiset(s)[d]
    decreases |s|
  {
    if |s| >= 1 {
      RemoveAllChar(s[1..], c);
      assert s == [s[0]] + s[1..];
      assert s[..1] == [s[0]];
    }
  }

  /** ... and keeps them in their order: deleting one character is the
      character filter `Without`. */
  lemma {:induction false} RemoveAllCharInOrder(s: string, c: char)
    ensures RemoveAll(s, [c]) == Without(s, c)
    decreases |s|
  {
    if |s| >= 1 {
      var head, tail := [s[0]], s[1..];
      assert s == head + tail;
      assert s[..1] == head;
      RemoveAllCharInOrder(tail, c);
      WithoutAppend(head, tail, c);
      assert head[..0] == [];
      assert Without(head, c) == (if s[0] == c then [] else head);
    }
  }

  // ---------------------------------------------------------------------
  // Lemmas about `split` and `join`

  /** A string without the separator's first character splits into itself. */
  lemma {:induction false} SplitAbsent(s: string, sep: string)
    requires sep != [] && sep[0] !in s
    ensures Split(s, sep) == [s]
    decreases |s|
  {
    if |s| >= |sep| {
      assert s[..|sep|][0] == s[0];
      SplitAbsent(s[1..], sep);
      assert [s[0]] + s[1..] == s;
    }
  }

  /** The first piece ends at the first separator when the text before it
      cannot start a separator. */
  lemma {:induction false} SplitFirst(a: string, sep: string, c: string)
    requires sep != [] && sep[0] !in a
    ensures Split(a + sep + c, sep) == [a] + Split(c, sep)
    decreases |a|
  {
    var s := a + sep + c;
    if a == [] {
      assert s == sep + c;
      assert s[..|sep|] == sep;
      assert s[|sep|..] == c;
    } else {
      assert s[..|sep|][0] == a[0];
      assert s[1..] == a[1..] + sep + c;
      SplitFirst(a[1..], sep, c);
      assert [a[0]] + a[1..] == a;
    }
  }

  /** Two pieces around one separator split back into those two pieces. */
  lemma SplitTwo(a: string, sep: string, b: string)
    requires sep != [] && sep[0] !in a && sep[0] !in b
    ensures Split(a + sep + b, sep) == [a, b]
  {
    SplitFirst(a, sep, b);
    SplitAbsent(b, sep);
    assert [a] + [b] == [a, b];
  }

  /** `split` undoes `join` when no piece contains the separator's first
      character. */
  lemma {:induction false} SplitJoin(parts: seq<string>, sep: string)
    requires sep != [] && |parts| >= 1
    requires forall i :: 0 <= i < |parts| ==> sep[0] !in parts[i]
    ensures Split(Join(parts, sep), sep) == parts
    decreases |parts|
  {
    if |parts| == 1 {
      SplitAbsent(parts[0], sep);
    } else {
      SplitJoin(parts[1..], sep);
      SplitFirst(parts[0], sep, Join(parts[1..], sep));
      assert [parts[0]] + parts[1..] == parts;
    }
  }

  lemma JoinConsHead(c: char, parts: seq<string>, sep: string)
    requires |parts| >= 1
    ensures Join([[c] + parts[0]] + parts[1..], sep) == [c] + Join(parts, sep)
  {
    var q := [[c] + parts[0]] + parts[1..];
    assert q[1..] == parts[1..];
  }

  lemma JoinConsEmpty(parts: seq<string>, sep: string)
    requires |parts| >= 1
    ensures Join([""] + parts, sep) == sep + Join(parts, sep)
  {
    assert ([""] + parts)[1..] == parts;
  }

  /** `join` undoes `split`: no text is lost or invented. */
  lemma {:induction false} JoinSplit(s: string, sep: string)
    requires sep != []
    ensures Join(Split(s, sep), sep) == s
    decreases |s|
  {
    if |s| < |sep| {
      assert Split(s, sep) == [s];
    } else if s[..|sep|] == sep {
      var tail := s[|sep|..];
      var rest := Split(tail, sep);
      assert Split(s, sep) == [""] + rest;
      JoinSplit(tail, sep);
      JoinConsEmpty(rest, sep);
      assert s == sep + tail;
    } else {
      var tail := s[1..];
      var rest := Split(tail, sep);
      assert Split(s, sep) == [[s[0]] + rest[0]] + rest[1..];
      JoinSplit(tail, sep);
      JoinConsHead(s[0], rest, sep);
      assert s == [s[0]] + tail;
    }
  }

  // ---------------------------------------------------------------------
  // Lemmas about `re.split` on a character class

  /** No piece of `SplitAny` contains a separator character. */
  lemma {:induction false} SplitAnyPiecesClean(s: string, cs: set<char>)
    ensures forall k :: 0 <= k < |SplitAny(s, cs)| ==> NoneIn(SplitAny(s, cs)[k], cs)
    decreases |s|
  {
    if s != [] {
      SplitAnyPiecesClean(s[1..], cs);
    }
  }

  /** The first piece is the longest prefix free of separators. */
  lemma {:induction false} SplitAnyFirst(s: string, cs: set<char>)
    ensures var v := SplitAny(s, cs)[0];
      StartsWith(s, v) && NoneIn(v, cs) && (|v| < |s| ==> s[|v|] in cs)
    decreases |s|
  {
    if s != [] && s[0] !in cs {
      SplitAnyFirst(s[1..], cs);
      var r0 := SplitAny(s[1..], cs)[0];
      assert s[..|r0| + 1] == [s[0]] + s[1..][..|r0|];
    }
  }

  /** Only text free of separators comes back as a single piece. */
  lemma {:induction false} SplitAnySingle(s: string, cs: set<char>)
    ensures |SplitAny(s, cs)| == 1 <==> NoneIn(s, cs)
    ensures NoneIn(s, cs) ==> SplitAny(s, cs) == [s]
    decreases |s|
  {
    if s != [] {
      SplitAnySingle(s[1..], cs);
      assert s == [s[0]] + s[1..];
      if NoneIn(s, cs) {
        assert NoneIn(s[1..], cs);
      } else if s[0] !in cs {
        assert !NoneIn(s[1..], cs);
      }
    }
  }

  /** `w` is the longest suffix of `s` free of separators. */
  predicate LastPieceOf(s: string, w: string, cs: set<char>) {
    |w| <= |s| && s[|s| - |w|..] == w && NoneIn(w, cs)
    && (|w| < |s| ==> s[|s| - |w| - 1] in cs)
  }

  /** The last piece is the longest suffix free of separators. */
  lemma {:induction false} SplitAnyLast(s: string, cs: set<char>)
    ensures LastPieceOf(s, Last(SplitAny(s, cs)), cs)
    decreases |s|
  {
    if s != [] {
      var t := s[1..];
      assert s == [s[0]] + t;
      SplitAnyLast(t, cs);
      SplitAnyLastStep(s, cs);
      SplitAnySingle(t, cs);
      var w := Last(SplitAny(t, cs));
      if s[0] in cs || |SplitAny(t, cs)| > 1 {
        assert |w| == |t| ==> w == t[|t| - |w|..] == t;
        LastPieceCons(s[0], t, w, cs);
      } else {
        assert |SplitAny(t, cs)| == 1;
        LastPieceWhole(s[0], t, cs);
      }
    }
  }

  /** How the last piece of `s` relates to the last piece of its tail. */
  lemma SplitAnyLastStep(s: string, cs: set<char>)
    requires s != []
    ensures var rest := SplitAny(s[1..], cs);
      Last(SplitAny(s, cs)) == if s[0] in cs || |rest| > 1 then Last(rest) else [s[0]] + Last(rest)
  {
  }

  lemma LastPieceWhole(c: char, t: string, cs: set<char>)
    requires c !in cs && NoneIn(t, cs)
    ensures LastPieceOf([c] + t, [c] + t, cs)
  {
    var s := [c] + t;
    assert forall i :: 1 <= i < |s| ==> s[i] == t[i - 1];
  }

  lemma LastPieceCons(c: char, t: string, w: string, cs: set<char>)
    requires LastPieceOf(t, w, cs)
    requires c in cs || |w| < |t|
    ensures LastPieceOf([c] + t, w, cs)
  {
    var s := [c] + t;
    assert s[|s| - |w|..] == t[|t| - |w|..];
    assert |w| < |t| ==> s[|s| - |w| - 1] == t[|t| - |w| - 1];
  }
}

=== FILE: records.dfy ===
/** Shapes shared by the adapters: optional values, failures, the canonical
    vulnerability record and the field set an advisory adapter fills into
    the NVD-style record template. */
module Records {
  import PyStrings

  datatype Option<+T> = None | Some(value: T) {
    function GetOr(default: T): T {
      if Some? then value else default
    }
  }

  /** A Python exception the adapters let escape, reduced to its cause. */
  datatype FeedError =
    | MissingKey(key: string)      // `KeyError`, or `None` where a container was expected
    | EmptyList(field: string)     // `IndexError` on `[0]` of an empty list

  datatype Result<+T> = Success(value: T) | Failure(error: FeedError)

  /** One `(version_start, version_end)` pair: `start == ""` means no known
      lower bound and `end == "*"` no known upper bound. */
  datatype VersionRange = VersionRange(start: string, end: string)

  /** What the severity table returns for a coarse label:
      `(score, severity, vectorString, attackComplexity)`. */
  datatype SeverityDefaults = SeverityDefaults(
    score: real, severity: string, vectorString: string, attackComplexity: string)

  /** A reference entry `{"name": ..., "url": ...}`. */
  datatype Reference = Reference(name: string, url: Option<string>)

  /** The values an advisory adapter substitutes into the record template,
      one record per affected package and version range. */
  datatype AdvisoryRecord = AdvisoryRecord(
    cveId: string,
    cweId: Option<string>,
    assigner: string,
    references: seq<Reference>,
    description: string,
    vectorString: string,
    vendor: string,
    product: string,
    version: string,
    versionStart: string,
    versionEnd: string,
    severity: string,
    attackComplexity: string,
    score: real,
    publishedDate: string,
    lastModifiedDate: string)

  datatype CvssV3 = CvssV3(
    baseScore: real,
    exploitabilityScore: real,
    impactScore: real,
    attackVector: string,
    attackComplexity: string,
    privilegesRequired: string,
    userInteraction: string,
    scope: string,
    confidentialityImpact: string,
    integrityImpact: string,
    availabilityImpact: string)

  datatype VulnerabilityDetail = VulnerabilityDetail(
    cpeUri: string,
    minAffectedVersion: Option<string>,
    maxAffectedVersion: Option<string>,
    sourceUpdateTime: string)

  /** The canonical record. */
  datatype Vulnerability = Vulnerability(
    id: string,
    problemType: string,
    baseScore: Option<real>,
    severity: Option<string>,
    description: string,
    relatedUrls: seq<string>,
    details: seq<VulnerabilityDetail>,
    cvssV3: Option<CvssV3>,
    lastModifiedDate: string)

  /** A bare version number: none of the range operators, separators or
      whitespace the range parsers cut on. */
  predicate PlainVersion(v: string) {
    forall i :: 0 <= i < |v| ==>
      v[i] != '<' && v[i] != '>' && v[i] != '=' && v[i] != ',' && v[i] != '|'
      && !PyStrings.IsSpace(v[i])
  }

  lemma PlainLacks(v: string)
    requires PlainVersion(v)
    ensures '<' !in v && '>' !in v && '=' !in v && ',' !in v && '|' !in v && ' ' !in v
  {
    assert forall c :: c in v ==> exists i :: 0 <= i < |v| && v[i] == c;
  }
}

=== FILE: storage.dfy ===
/** The append-only binary store: a database log of serialized records and
    a parallel index log, each a sequence of decoded msgpack objects. */
module Storage {
  import opened Records

  /** One decoded msgpack object of a log: a list of values, or a single
      value that is not a list. */
  datatype Unit<R> = Batch(records: seq<R>) | Lone(record: R)

  /** A log file as the sequence of objects an unpacker yields from it. */
  type Log<R> = seq<Unit<R>>

  /** The part of a serialized vulnerability the index is built from. */
  datatype StoredDetails = StoredDetails(package: string, maxAffectedVersion: Option<string>)

  /** One element of the serialized list a store call packs. */
  datatype StoredRecord = StoredRecord(id: string, details: StoredDetails)

  /** One index entry `{"name": ..., "version": ...}`. */
  datatype IndexEntry = IndexEntry(name: string, version: Option<string>)

  /** The database log and the index log together. */
  datatype Files = Files(db: Log<StoredRecord>, index: Log<IndexEntry>)

  /** What `store` leaves behind and what it returns. */
  datatype Stored = Stored(files: Files, packed: Unit<StoredRecord>)

  // -----------------------------------------------------------------------
  // Reading back

  /** The values one object stands for: a list's elements, or the object
      itself. */
  function Values<R>(u: Unit<R>): (vs: seq<R>)
    ensures u.Lone? ==> vs == [u.record]
    ensures u.Batch? ==> vs == u.records
  {
    match u
    case Batch(rs) => rs
    case Lone(r) => [r]
  }

  /** Every value of a log, object after object. */
  function Replay<R>(log: Log<R>): seq<R> {
    if log == [] then [] else Replay(log[..|log| - 1]) + Values(log[|log| - 1])
  }

  /** Every object of the log is a list, as every `store` call writes. */
  predicate Batched<R>(log: Log<R>) {
    forall i :: 0 <= i < |log| ==> log[i].Batch?
  }

  lemma ReplayAppend<R>(log: Log<R>, u: Unit<R>)
    ensures Replay(log + [u]) == Replay(log) + Values(u)
  {
    assert (log + [u])[..|log|] == log;
  }

  /** `stream_read`: the concatenation of every list in the log. A log
      holding a non-list object is outside the model (see README). */
  method StreamRead<R>(log: Log<R>) returns (records: seq<R>)
    requires Batched(log)
    ensures records == Replay(log)
  {
    records := [];
    var i := 0;
    while i < |log|
      invariant 0 <= i <= |log|
      invariant records == Replay(log[..i])
    {
      var unpacked := log[i];
      if unpacked.records != [] {
        records := records + unpacked.records;
      }
      assert log[..i + 1] == log[..i] + [log[i]];
      ReplayAppend(log[..i], log[i]);
      i := i + 1;
    }
    assert log[..|log|] == log;
  }

  // -----------------------------------------------------------------------
  // Searching

  /** The values whose key is in `matches`, in order. */
  function Select<R, K(==)>(rs: seq<R>, key: R -> K, matches: seq<K>): seq<R> {
    if rs == [] then []
    else
      var last := rs[|rs| - 1];
      Select(rs[..|rs| - 1], key, matches) + (if key(last) in matches then [last] else [])
  }

  lemma SelectSnoc<R, K>(rs: seq<R>, x: R, key: R -> K, matches: seq<K>)
    ensures Select(rs + [x], key, matches) == Select(rs, key, matches) + (if key(x) in matches then [x] else [])
  {
    assert (rs + [x])[..|rs|] == rs;
  }

  /** The inner loop of `stream_bulk_search` over one list: extends the
      matches found in `seen` by those in `rs`. */
  method SearchBatch<R, K(==)>(found: seq<R>, seen: seq<R>, rs: seq<R>, key: R -> K, matches: seq<K>)
    returns (res: seq<R>)
    requires found == Select(seen, key, matches)
    ensures res == Select(seen + rs, key, matches)
  {
    res := found;
    var j := 0;
    assert seen + rs[..0] == seen;
    while j < |rs|
      invariant 0 <= j <= |rs|
      invariant res == Select(seen + rs[..j], key, matches)
    {
      var data := rs[j];
      if key(data) in matches {
        res := res + [data];
      }
      assert seen + rs[..j + 1] == (seen + rs[..j]) + [data];
      SelectSnoc(seen + rs[..j], data, key, matches);
      j := j + 1;
    }
    assert rs[..|rs|] == rs;
  }

  /** One object of the log: a list is searched element by element, any
      other object is matched as a single value. */
  method SearchUnit<R, K(==)>(found: seq<R>, seen: seq<R>, u: Unit<R>, key: R -> K, matches: seq<K>)
    returns (res: seq<R>)
    requires found == Select(seen, key, matches)
    ensures res == Select(seen + Values(u), key, matches)
  {
    if u.Batch? {
      res := SearchBatch(found, seen, u.records, key, matches);
    } else {
      res := found;
      if key(u.record) in matches {
        res := res + [u.record];
      }
      SelectSnoc(seen, u.record, key, matches);
    }
  }

  lemma ReplayPrefix<R>(log: Log<R>, i: nat)
    requires i < |log|
    ensures Replay(log[..i + 1]) == Replay(log[..i]) + Values(log[i])
  {
    assert log[..i + 1] == log[..i] + [log[i]];
    ReplayAppend(log[..i], log[i]);
  }

  /** `stream_bulk_search`: every value of the log, a non-list object
      counting as one value, whose key is in `matches`, in log order. */
  method StreamBulkSearch<R, K(==)>(matches: seq<K>, key: R -> K, log: Log<R>) returns (res: seq<R>)
    ensures res == Select(Replay(log), key, matches)
  {
    res := [];
    var i := 0;
    while i < |log|
      invariant 0 <= i <= |log|
      invariant res == Select(Replay(log[..i]), key, matches)
    {
      res := SearchUnit(res, Replay(log[..i]), log[i], key, matches);
      ReplayPrefix(log, i);
      i := i + 1;
    }
    assert log[..|log|] == log;
  }

  /** `idx` picks `a` out of `b` at strictly increasing positions. */
  ghost predicate Embeds<T>(a: seq<T>, b: seq<T>, idx: seq<nat>) {
    && |idx| == |a|
    && (forall k :: 0 <= k < |idx| ==> idx[k] < |b| && a[k] == b[idx[k]])
    && (forall k, l :: 0 <= k < l < |idx| ==> idx[k] < idx[l])
  }

  /** The positions of the selected values. */
  function SelectedPositions<R, K(==)>(rs: seq<R>, key: R -> K, matches: seq<K>): seq<nat> {
    if rs == [] then []
    else
      var n := |rs| - 1;
      SelectedPositions(rs[..n], key, matches) + (if key(rs[n]) in matches then [n] else [])
  }

  /** The search result is a subsequence of what it searches. */
  lemma {:induction false} SelectIsSubsequence<R, K>(rs: seq<R>, key: R -> K, matches: seq<K>)
    ensures Embeds(Select(rs, key, matches), rs, SelectedPositions(rs, key, matches))
    ensures forall k :: 0 <= k < |SelectedPositions(rs, key, matches)| ==> SelectedPositions(rs, key, matches)[k] < |rs|
    decreases |rs|
  {
    if rs != [] {
      var n := |rs| - 1;
      SelectIsSubsequence(rs[..n], key, matches);
      var a := Select(rs[..n], key, matches);
      var idx := SelectedPositions(rs[..n], key, matches);
      assert forall k :: 0 <= k < |idx| ==> idx[k] < n && a[k] == rs[idx[k]];
    }
  }

  /** A value is found exactly when it is stored and its key matches. */
  lemma {:induction false} SelectMembers<R, K>(rs: seq<R>, key: R -> K, matches: seq<K>, x: R)
    ensures x in Select(rs, key, matches) <==> x in rs && key(x) in matches
    decreases |rs|
  {
    if rs != [] {
      var n := |rs| - 1;
      SelectMembers(rs[..n], key, matches, x);
      assert rs == rs[..n] + [rs[n]];
    }
  }

  /** An empty match list finds nothing. */
  lemma {:induction false} SelectNothing<R, K>(rs: seq<R>, key: R -> K)
    ensures Select(rs, key, []) == []
    decreases |rs|
  {
    if rs != [] {
      SelectNothing(rs[..|rs| - 1], key);
    }
  }

  /** A match list covering every key finds everything, in order. */
  lemma {:induction false} SelectEverything<R, K>(rs: seq<R>, key: R -> K, matches: seq<K>)
    requires forall i :: 0 <= i < |rs| ==> key(rs[i]) in matches
    ensures Select(rs, key, matches) == rs
    decreases |rs|
  {
    if rs != [] {
      var n := |rs| - 1;
      SelectEverything(rs[..n], key, matches);
      assert rs == rs[..n] + [rs[n]];
    }
  }

  // -----------------------------------------------------------------------
  // Writing

  /** The index entries of a serialized list, one per record, in order. */
  function IndexOf(data: seq<StoredRecord>): (index: seq<IndexEntry>)
    ensures |index| == |data|
    ensures forall i :: 0 <= i < |data| ==>
      index[i].name == data[i].details.package && index[i].version == data[i].details.maxAffectedVersion
  {
    if data == [] then []
    else
      var n := |data| - 1;
      IndexOf(data[..n]) + [IndexEntry(data[n].details.package, data[n].details.maxAffectedVersion)]
  }

  lemma {:induction false} IndexOfAppend(a: seq<StoredRecord>, b: seq<StoredRecord>)
    ensures IndexOf(a + b) == IndexOf(a) + IndexOf(b)
  {
    var l, r := IndexOf(a + b), IndexOf(a) + IndexOf(b);
    assert |l| == |r|;
    forall i | 0 <= i < |l|
      ensures l[i] == r[i]
    {
      if i < |a| {
        assert (a + b)[i] == a[i];
      } else {
        assert (a + b)[i] == b[i - |a|];
      }
    }
  }

  /** `store`: serialize `datas`, append the packed list to the database log
      and its index to the index log, and return the packed list. */
  function Store(files: Files, datas: seq<Vulnerability>, serialize: seq<Vulnerability> -> seq<StoredRecord>): (r: Stored)
    ensures |r.files.db| == |files.db| + 1 && r.files.db[..|files.db|] == files.db
    ensures |r.files.index| == |files.index| + 1 && r.files.index[..|files.index|] == files.index
    ensures r.files.db[|files.db|] == r.packed && r.packed.Batch?
    ensures Values(r.packed) == serialize(datas)
    ensures Values(r.files.index[|files.index|]) == IndexOf(Values(r.packed))
  {
    var dataList := serialize(datas);
    var packed := Batch(dataList);
    Stored(Files(files.db + [packed], files.index + [Batch(IndexOf(dataList))]), packed)
  }

  /** Object i of the index log lists the entries of object i of the
      database log. */
  predicate Parallel(files: Files) {
    && |files.db| == |files.index|
    && Batched(files.db)
    && Batched(files.index)
    && forall i :: 0 <= i < |files.db| ==> files.index[i].records == IndexOf(files.db[i].records)
  }

  lemma StoreKeepsParallel(files: Files, datas: seq<Vulnerability>, serialize: seq<Vulnerability> -> seq<StoredRecord>)
    requires Parallel(files)
    ensures Parallel(Store(files, datas, serialize).files)
  {
    var after := Store(files, datas, serialize).files;
    assert forall i :: 0 <= i < |files.db| ==> after.db[i] == files.db[i] && after.index[i] == files.index[i];
  }

  /** Read whole, the index log has one entry per stored record, in order. */
  lemma {:induction false} ParallelIndex(files: Files)
    requires Parallel(files)
    ensures Replay(files.index) == IndexOf(Replay(files.db))
    decreases |files.db|
  {
    if files.db != [] {
      var n := |files.db| - 1;
      var before := Files(files.db[..n], files.index[..n]);
      assert Parallel(before);
      ParallelIndex(before);
      IndexOfAppend(Replay(before.db), files.db[n].records);
    }
  }

  /** `store` called once per batch, in order. */
  function StoreAll(files: Files, batches: seq<seq<Vulnerability>>, serialize: seq<Vulnerability> -> seq<StoredRecord>): Files {
    if batches == [] then files
    else Store(StoreAll(files, batches[..|batches| - 1], serialize), batches[|batches| - 1], serialize).files
  }

  /** The serialized batches, concatenated in order. */
  function SerializedAll(batches: seq<seq<Vulnerability>>, serialize: seq<Vulnerability> -> seq<StoredRecord>): seq<StoredRecord> {
    if batches == [] then [] else SerializedAll(batches[..|batches| - 1], serialize) + serialize(batches[|batches| - 1])
  }

  /** Storing batches b1 .. bn into empty files and reading the database
      back yields serialize(b1) ++ .. ++ serialize(bn), and the index stays
      one entry per record. */
  lemma {:induction false} StoreThenRead(batches: seq<seq<Vulnerability>>, serialize: seq<Vulnerability> -> seq<StoredRecord>)
    ensures Parallel(StoreAll(Files([], []), batches, serialize))
    ensures Batched(StoreAll(Files([], []), batches, serialize).db)
    ensures Replay(StoreAll(Files([], []), batches, serialize).db) == SerializedAll(batches, serialize)
    decreases |batches|
  {
    if batches != [] {
      var n := |batches| - 1;
      var before := StoreAll(Files([], []), batches[..n], serialize);
      StoreThenRead(batches[..n], serialize);
      StoreKeepsParallel(before, batches[n], serialize);
      ReplayAppend(before.db, Batch(serialize(batches[n])));
    }
  }

  /** Searching the database log that storing batches b1 .. bn into empty
      files leaves behind finds, in order, exactly the serialized records
      of those batches whose key matches. */
  lemma SearchAfterStore<K>(batches: seq<seq<Vulnerability>>, serialize: seq<Vulnerability> -> seq<StoredRecord>,
                            key: StoredRecord -> K, matches: seq<K>, x: StoredRecord)
    ensures Select(Replay(StoreAll(Files([], []), batches, serialize).db), key, matches)
         == Select(SerializedAll(batches, serialize), key, matches)
    ensures Embeds(Select(SerializedAll(batches, serialize), key, matches), SerializedAll(batches, serialize),
                   SelectedPositions(SerializedAll(batches, serialize), key, matches))
    ensures x in Select(Replay(StoreAll(Files([], []), batches, serialize).db), key, matches)
        <==> x in SerializedAll(batches, serialize) && key(x) in matches
  {
    StoreThenRead(batches, serialize);
    SelectIsSubsequence(SerializedAll(batches, serialize), key, matches);
    SelectMembers(SerializedAll(batches, serialize), key, matches, x);
  }
}
